=== FILE: README.md ===
# iTwin Library sample client — Dafny model

This project models the core of the iTwin Library sample application, a C# client
for the Bentley iTwin Platform component library REST service (`https://api.bentley.com/library/...`).
It has two layers.

- **Endpoint manager.** One shared HTTP client with default headers. It sends GET, POST, PUT
  and DELETE requests and turns every reply into a typed response record:
  - the status and raw content;
  - the error details when the status is not the success status;
  - the decoded instance or instances, read from a JSON envelope key.

  The key is derived from the type name: lower-cased, pluralised for lists, and corrected
  by a small alias table. The endpoint manager also polls a job until it completes.
- **Library manager.** One method per service operation: components, catalogs, categories,
  applications, manufacturers, documents, variations and web links.
  - Each operation accepts exactly one status and throws on any other.
  - Creations can remember what they created in one of five cleanup lists.
  - Disposal deletes everything remembered, in a fixed order.

Around these sit:
- the request-body models (`ComponentPost`, `DocumentPost`);
- their GUID-based default constructors;
- the conversions from a component or document read from the service back into a body.
  These pull the ids of referenced entities out of their link URLs.

## How the model is built

- **The network is a script.** `Http.HttpClient` holds three things:
  - the default headers;
  - the log of every request sent (verb, URL, header snapshot, JSON body);
  - the queue of replies still to come.

  Each send logs its request and consumes one reply. An exhausted script is a transport failure.
- **Methods are proved against functions.** Every endpoint and library method is proved
  against a pure function of the reply it consumed:
  - `Responses.GetResult` and its siblings classify a reply as the endpoint manager does;
  - `Library.ListCall` and its siblings add the single accepted status;
  - `Polling.PollFrom` is the job poll;
  - `Library.DeleteRun` is disposal.

  The lemmas are stated about those functions.
- **Exceptions are failures.** `Http.Failure` names each one:
  - a body that is not JSON;
  - a missing envelope key that is then dereferenced;
  - a decoder failure;
  - a null dereference;
  - a failed job, a missing file, an invalid URI;
  - a rejected status, which keeps its error details.
- **JSON is abstract.** `Json.Json` is a JSON value. The JSON library's parser, its
  decoders and encoders, the URI parser, the clock and the GUIDs are all parameters.
  - A missing key read with `?.ToObject` gives a null value.
  - A JSON `null` token decodes to a null instance.
  - Enumerating a token follows Json.NET: an array gives its items, a scalar gives
    nothing, and a non-empty object is a failure.
- **Null is `None`.** Every C# reference that may be null is an `Option`. A null string
  interpolates as the empty string (`Library.Interp`).

Where the code's comments and names suggest one thing and the code does another, the model
follows the code:
- A job poll that reaches its deadline while the job is still running returns the last job
  snapshot as the result (`EndpointManager.cs:394-397`). The method's name and the comment at
  `EndpointManager.cs:353-354` suggest a completed job, but no timeout is raised.
- The poll pauses 5 seconds between fetches (`EndpointManager.cs:392`). The comment at
  `EndpointManager.cs:390` says 2 seconds.
- A non-empty body that is not JSON makes every call throw (`MalformedBody`) instead of
  giving a response whose status carries the error. An empty body is not parsed by the two
  POST calls and the two-type PUT (`EndpointManager.cs:150`, `:197`, `:244`), so for those
  calls an empty error reply is still a response; the other calls parse every body they
  read, and a 204 to a DELETE is not read at all.
- Custom headers are added to the shared client's default headers and stay there. A
  `Prefer` header sent once is sent with every later request.

## Model

| member | source | states |
|---|---|---|
| Models.HrefOf | iTwinLibrarySampleApp/Models/Component.cs:61-63 | `link?.Href` is non-null exactly when the link and its href are both non-null |
| Models.Hashtag | iTwinLibrarySampleApp/Models/ComponentPost.cs:19 | the default hashtag is 50 characters: the prefix followed by the first 31 characters of the GUID |
| Models.NewCatalog | iTwinLibrarySampleApp/Models/Catalog.cs:15-21 | a default catalog has the name and description built from the first two GUIDs, region US, one 50-character hashtag with the hashtag prefix, and no id |
| Models.NewCategory | iTwinLibrarySampleApp/Models/Category.cs:14-17 | a default category has the name built from the first GUID and no id |
| Models.NewApplication | iTwinLibrarySampleApp/Models/Application.cs:14-18 | a default application has the name built from the first GUID, the version built from the second, and no id |
| Models.NewManufacturer | iTwinLibrarySampleApp/Models/Manufacturer.cs:15-21 | a default manufacturer has the name built from the first GUID, the fixed sample phone, address and website, and no id |
| ComponentPosts.NewComponentPost | iTwinLibrarySampleApp/Models/ComponentPost.cs:15-21 | the default body is a GUID-named draft with a GUID description and one 50-character hashtag beginning with the hashtag prefix, referencing no catalog, category, application or manufacturer |
| ComponentPosts.NewComponentPostWith | iTwinLibrarySampleApp/Models/ComponentPost.cs:23-29 | the four-reference constructor sets exactly the four references and otherwise equals the default body |
| ComponentPosts.DistinctGuidsGiveDistinctNames | iTwinLibrarySampleApp/Models/ComponentPost.cs:17 | different name GUIDs give different display names |
| ComponentPosts.HashtagKeepsGuidPrefix | iTwinLibrarySampleApp/Models/ComponentPost.cs:19 | two default hashtags are equal if and only if their GUIDs agree on the first 31 characters, because `Substring(0, 50)` drops the rest |
| DocumentPosts.NewDocumentPost | iTwinLibrarySampleApp/Models/DocumentPost.cs:14-21 | a new document body has the given purpose and extension and a GUID name; it is active, not yet available, at version "v1", with no previous version and no design document |
| DocumentPosts.DistinctGuidsGiveDistinctNames | iTwinLibrarySampleApp/Models/DocumentPost.cs:16 | different name GUIDs give different display names |
| Json.Elements | iTwinLibrarySampleApp/EndpointManager.cs:76-79 | enumerating a token yields an array's items, nothing for a scalar, null or an empty object, and fails on a non-empty object |
| Uris.GetLastSegmentFromUrl | iTwinLibrarySampleApp/Models/Component.cs:83-89 | gives a value exactly when the URL is non-null and absolute, and the value is the URI's last segment |
| Naming.LowerChar | iTwinLibrarySampleApp/EndpointManager.cs:69 | `ToLower` on a character maps A-Z to a-z and leaves every other character unchanged; the result is never an upper-case letter |
| Naming.Lower | iTwinLibrarySampleApp/EndpointManager.cs:69 | lower-casing keeps the length |
| Naming.LowerAt | iTwinLibrarySampleApp/EndpointManager.cs:69 | lower-casing works character by character |
| Naming.LowerIsLower | iTwinLibrarySampleApp/EndpointManager.cs:69 | a lower-cased string has no upper-case letter |
| Naming.LowerIdempotent | iTwinLibrarySampleApp/EndpointManager.cs:69 | lower-casing twice is lower-casing once |
| Naming.LowerOfLower | iTwinLibrarySampleApp/EndpointManager.cs:69 | a string without upper-case letters is its own lower-case form |
| Naming.LowerAppend | iTwinLibrarySampleApp/EndpointManager.cs:69 | lower-casing distributes over concatenation, so the plural "s" survives it |
| Naming.LowerIs | iTwinLibrarySampleApp/EndpointManager.cs:69 | a string that matches another character by character after `ToLower` is its lower-case form |
| Naming.DerivedKey | iTwinLibrarySampleApp/EndpointManager.cs:69 | the derived key is the type name lower-cased character by character, followed by "s" for a list |
| Naming.ContainerKey | iTwinLibrarySampleApp/EndpointManager.cs:69-71 | the envelope key is the alias of the derived key when the table holds one, and otherwise the derived key itself |
| Naming.AliasesOnlyChangeCase | iTwinLibrarySampleApp/EndpointManager.cs:41-44 | each alias differs from the derived key it replaces only in letter case |
| Naming.ContainerKeyMatchesUpToCase | iTwinLibrarySampleApp/EndpointManager.cs:69-71 | with the alias table, the envelope key always lower-cases to the derived key |
| Naming.WebLinkKeys | iTwinLibrarySampleApp/EndpointManager.cs:43-44 | web links are read from `webLinks` (list) and `webLink` (single) |
| Naming.JobKey | iTwinLibrarySampleApp/EndpointManager.cs:375 | the key derived for `Job` is the literal `job` the poll reads |
| Naming.PlainKeys | iTwinLibrarySampleApp/EndpointManager.cs:69-71 | types without an alias use the derived key verbatim: `components`, `catalog`, `documents` |
| Responses.DecodeToken | iTwinLibrarySampleApp/EndpointManager.cs:78 | `ToObject<T>` on a null token gives a null instance, and a decoder failure is a decode error at that key |
| Responses.Sibling | iTwinLibrarySampleApp/EndpointManager.cs:75 | `payload[key]?.ToObject` gives null for a missing key and decodes a present one |
| Responses.Payload | iTwinLibrarySampleApp/EndpointManager.cs:118 | `payload[key].ToObject` fails on a missing key and decodes a present one |
| Responses.DecodeAll | iTwinLibrarySampleApp/EndpointManager.cs:76-79 | the list decodes exactly when every element does, element by element in order; otherwise it is a decode error at the key |
| Responses.GetResult | iTwinLibrarySampleApp/EndpointManager.cs:48-87 | no reply is a transport failure and an unparsable body a malformed body; status and content are kept; on 200 the `_links` sibling is read first, then a missing plural key is a failure (not an empty list) and otherwise the instances are the decoded elements; on any other status the error details are the decoded "error" sibling (null when absent) |
| Responses.SingleResult | iTwinLibrarySampleApp/EndpointManager.cs:96-126 | status and content are kept; on 200 a missing singular key is a failure and otherwise the instance is the decoded payload; on any other status the error details are the decoded "error" sibling |
| Responses.PostResult | iTwinLibrarySampleApp/EndpointManager.cs:128-173 | an empty body echoes the posted model; on 201 a missing key is a failure and otherwise the new instance is the decoded payload; any other status keeps the decoded error details; response headers are never kept |
| Responses.PostAsResult | iTwinLibrarySampleApp/EndpointManager.cs:175-220 | response headers are always kept; an empty body gives no instance; on 201 or 202 a missing key is a failure and otherwise the new instance is the decoded payload; any other status keeps the decoded error details |
| Responses.PutAsResult | iTwinLibrarySampleApp/EndpointManager.cs:222-267 | an empty body gives no instance and is not parsed; on 200 a missing key is a failure and otherwise the updated instance is the decoded payload; any other status keeps the decoded error details |
| Responses.PutResult | iTwinLibrarySampleApp/EndpointManager.cs:269-303 | the body is parsed whatever its content; on 200 a missing key is a failure and otherwise the updated instance is the decoded payload; any other status keeps the decoded error details |
| Responses.DeleteResult | iTwinLibrarySampleApp/EndpointManager.cs:305-329 | a 204 ignores the body; any other status parses it and keeps the decoded "error" sibling as the error details, or fails when that sibling does not decode |
| Responses.ListRoundTrip | iTwinLibrarySampleApp/EndpointManager.cs:66-79 | a 200 list envelope of serialised instances reads back as exactly those instances |
| Responses.SingleRoundTrip | iTwinLibrarySampleApp/EndpointManager.cs:109-118 | a 200 envelope holding a serialised instance reads back as it |
| Responses.PostRoundTrip | iTwinLibrarySampleApp/EndpointManager.cs:150-161 | a 201 reply holding a serialised instance gives that instance, whatever model was posted |
| Responses.ErrorEnvelopeAgreement | iTwinLibrarySampleApp/EndpointManager.cs:84-325 | for every body whose "error" sibling decodes (or is absent), every call classifies an error status alike: the status, those error details and no instance |
| Responses.DeleteNoContentIgnoresBody | iTwinLibrarySampleApp/EndpointManager.cs:305-329 | a 204 reply to a DELETE gives the same response whatever its body |
| Responses.PutVariantsAgree | iTwinLibrarySampleApp/EndpointManager.cs:222-303 | the two PUT variants agree on every non-empty body; on an empty one only the single-type PUT fails |
| Responses.PostVariantsAgree | iTwinLibrarySampleApp/EndpointManager.cs:128-220 | apart from 202 and the kept headers, the two POST variants agree on every non-empty body |
| Polling.Examine | iTwinLibrarySampleApp/EndpointManager.cs:361-389 | one fetch: a non-200 ends the wait; a null job or null status is a null dereference; "Error" fails with the job; otherwise the status is observed |
| Polling.PollFrom | iTwinLibrarySampleApp/EndpointManager.cs:359-394 | the poll makes at least one fetch and at most one per reply plus one, and pauses at most once per fetch |
| Polling.FirstFetchSucceeds | iTwinLibrarySampleApp/EndpointManager.cs:394 | a job that reports success at the next fetch ends the wait with that response, after that one fetch and no pause, whatever the deadline |
| Polling.ErrorStatusFails | iTwinLibrarySampleApp/EndpointManager.cs:385-389 | any 200 reply whose job reports "Error" fails the wait with that job at that fetch, whatever the deadline |
| Polling.RejectedFetchStops | iTwinLibrarySampleApp/EndpointManager.cs:377-382 | any non-200 fetch ends the wait with its status, the decoded error details of its body and no job, or fails when those details do not decode |
| Polling.PausesFollowObservations | iTwinLibrarySampleApp/EndpointManager.cs:390-392 | the wait pauses exactly once after each fetched reply that shows the job in progress or queued (`ShouldDelay`), and never otherwise |
| Polling.QueuedThenSucceeds | iTwinLibrarySampleApp/EndpointManager.cs:390-394 | queued, then in progress, then success returns the final Success job after three fetches and two pauses |
| Polling.DeadlineReturnsUnfinishedJob | iTwinLibrarySampleApp/EndpointManager.cs:394-397 | a passed deadline ends the wait and returns the still-running job |
| Polling.RunningJobExhaustsScript | iTwinLibrarySampleApp/EndpointManager.cs:390-394 | with no deadline, a job that stays in progress is fetched until the network fails, pausing once per reply |
| Polling.ExpiryBoundsFetches | iTwinLibrarySampleApp/EndpointManager.cs:394 | a deadline test that holds from the n-th check on bounds the poll to n fetches |
| Polling.LateStartNeverExpires | iTwinLibrarySampleApp/EndpointManager.cs:356-394 | a wait that starts at minute 55 of the hour or later never meets the minute deadline as written |
| Polling.ElapsedExpiryBoundsFetches | iTwinLibrarySampleApp/EndpointManager.cs:356-394 | the elapsed-time deadline ends the wait by the first check at which five minutes have passed |
| Polling.MinuteDeadlineOverrun | iTwinLibrarySampleApp/EndpointManager.cs:356-394 | from minute 55, with a job that stays in progress, the written deadline allows 11 fetches over ten minutes where the elapsed deadline allows at most 5 |
| Endpoint.CustomHeaders | iTwinLibrarySampleApp/EndpointManager.cs:402-410 | no custom headers add nothing; otherwise every custom header is added, in order |
| Endpoint.EndpointManager.constructor | iTwinLibrarySampleApp/EndpointManager.cs:36-45 | the client's default headers become exactly Accept and Authorization, and the alias table is installed |
| Endpoint.EndpointManager.AddCustomHeaders | iTwinLibrarySampleApp/EndpointManager.cs:402-410 | the custom headers are appended to the default headers, and nothing is sent |
| Endpoint.EndpointManager.MakeGetCall | iTwinLibrarySampleApp/EndpointManager.cs:48-87 | adds the custom headers, sends one GET to the base URL plus the path, consumes one reply and returns the list classification under the plural key |
| Endpoint.EndpointManager.MakeGetSingleCall | iTwinLibrarySampleApp/EndpointManager.cs:89-94 | adds the custom headers and performs a single GET at the base URL plus the path |
| Endpoint.EndpointManager.MakeGetSingleCallAt | iTwinLibrarySampleApp/EndpointManager.cs:96-126 | sends one GET to the absolute URL and returns the single classification under the singular key |
| Endpoint.EndpointManager.MakePostCall | iTwinLibrarySampleApp/EndpointManager.cs:128-173 | sends one POST with the serialised model and returns the single-type POST classification |
| Endpoint.EndpointManager.MakePostCallAs | iTwinLibrarySampleApp/EndpointManager.cs:175-220 | sends one POST with the serialised input and returns the two-type POST classification under the output type's key |
| Endpoint.EndpointManager.MakePutCallAs | iTwinLibrarySampleApp/EndpointManager.cs:222-267 | sends one PUT with the serialised input and returns the two-type PUT classification |
| Endpoint.EndpointManager.MakePutCall | iTwinLibrarySampleApp/EndpointManager.cs:269-303 | sends one PUT with the serialised model and returns the single-type PUT classification |
| Endpoint.EndpointManager.MakeDeleteCall | iTwinLibrarySampleApp/EndpointManager.cs:305-329 | sends one DELETE without a body and returns the DELETE classification |
| Endpoint.EndpointManager.GetJobAfterCompletion | iTwinLibrarySampleApp/EndpointManager.cs:351-397 | the outcome, the number of GETs sent and the pauses are those of the poll specification under the minute deadline; every request is the same GET of the job URL |
| Components.CatalogIds | iTwinLibrarySampleApp/Models/Component.cs:67-74 | fails exactly when some catalog link is null; otherwise at most one id per link |
| Components.CatalogIdsAppend | iTwinLibrarySampleApp/Models/Component.cs:68-74 | the ids of a concatenation are the ids of its parts, in order |
| Components.CatalogIdsSound | iTwinLibrarySampleApp/Models/Component.cs:68-74 | every id comes from a link whose href ends in it |
| Components.CatalogIdsComplete | iTwinLibrarySampleApp/Models/Component.cs:68-74 | when every href is an absolute URL, there is exactly one id per link, in order |
| Components.CatalogIdsEmpty | iTwinLibrarySampleApp/Models/Component.cs:68-76 | there are no ids exactly when no href is an absolute URL |
| Components.CatalogsField | iTwinLibrarySampleApp/Models/Component.cs:65-77 | the catalogs field is set exactly when the catalog links yield a non-empty id list, and then to that list |
| Components.ConvertToComponentPost | iTwinLibrarySampleApp/Models/Component.cs:49-81 | fails exactly on a null catalog link; otherwise copies name, description, hashtags and state, and takes category, manufacturer, application and catalogs from the link URLs when there are links |
| Documents.ConvertToDocumentPost | iTwinLibrarySampleApp/Models/Document.cs:50-66 | copies purpose, extension, name, availability, activity and version; never copies the previous version; takes the design document from its link URL when there are links |
| Documents.EchoRoundTrip | iTwinLibrarySampleApp/Models/Document.cs:50-66 | a document that echoes a body without links or previous version converts back to that body |
| Documents.GuidAndLinksIrrelevant | iTwinLibrarySampleApp/Models/Document.cs:52-63 | the constructor's GUID never shows in the result, and the links decide only the design document |
| Library.Interp | iTwinLibrarySampleApp/LibraryManager.cs:45 | interpolating a null id prints nothing |
| Library.ListCall | iTwinLibrarySampleApp/LibraryManager.cs:106-112 | a list read succeeds exactly on a classified 200 and returns its instances; any other status is rejected with its error details, and failures propagate |
| Library.SingleCall | iTwinLibrarySampleApp/LibraryManager.cs:163-169 | a single read succeeds exactly on a classified 200 and returns its instance; other statuses are rejected |
| Library.CreateCall | iTwinLibrarySampleApp/LibraryManager.cs:263-272 | a single-type creation succeeds exactly on 201; an empty 201 returns the posted model |
| Library.CreateCallAs | iTwinLibrarySampleApp/LibraryManager.cs:288-297 | a two-type creation succeeds exactly on 201, so a 202 that the call decodes is still rejected; an empty 201 returns null |
| Library.UpdateCall | iTwinLibrarySampleApp/LibraryManager.cs:448-450 | a single-type update succeeds exactly on 200 |
| Library.UpdateCallAs | iTwinLibrarySampleApp/LibraryManager.cs:466-468 | a two-type update succeeds exactly on 200 and returns the updated instance |
| Library.DeleteCall | iTwinLibrarySampleApp/LibraryManager.cs:503-505 | a deletion succeeds exactly when a reply with 204 arrives |
| Library.ComponentsQuery | iTwinLibrarySampleApp/LibraryManager.cs:92-102 | a non-blank search gives `?$search=`; otherwise a non-blank catalog filter gives `?catalogs=`; otherwise there is no query |
| Library.CatalogsQuery | iTwinLibrarySampleApp/LibraryManager.cs:132-137 | there is a query exactly when the search is not blank, and then it is `?$search=` |
| Library.SearchDiscardsCatalogs | iTwinLibrarySampleApp/LibraryManager.cs:96-101 | a non-blank search makes the catalog filter irrelevant |
| Library.BlankArgumentsAddNoQuery | iTwinLibrarySampleApp/LibraryManager.cs:93-98 | an empty or all-white-space catalogs or search argument gives the same query as a null one, and a blank catalog search gives none |
| Library.CleanupPaths | iTwinLibrarySampleApp/LibraryManager.cs:44-61 | one entry per remembered instance, in order: its delete path, or nothing for a null instance |
| Library.DeleteRun | iTwinLibrarySampleApp/LibraryManager.cs:41-64 | a disposal run issues at most the planned deletions, and all of them when it succeeds |
| Library.DeleteRunFollowsPlan | iTwinLibrarySampleApp/LibraryManager.cs:44-61 | the deletions issued are a prefix of the plan |
| Library.DeleteRunAppend | iTwinLibrarySampleApp/LibraryManager.cs:41-64 | a run over two lists is the run over the first, followed (if it succeeded) by the run over the second |
| Library.DeleteRunAllAccepted | iTwinLibrarySampleApp/LibraryManager.cs:41-64 | with no null entry and every reply 204, every planned path is deleted once, in order, consuming one reply each |
| Library.DeleteRequests | iTwinLibrarySampleApp/LibraryManager.cs:501-554 | each issued path becomes one DELETE request to the base URL plus the path |
| Library.RanChains | iTwinLibrarySampleApp/LibraryManager.cs:44-61 | a successful run followed by another is a run of the joined plans |
| Library.RanStops | iTwinLibrarySampleApp/LibraryManager.cs:44-61 | a failed run is also the run of every longer plan it begins, and a finished run is the run of its own plan |
| Library.UploadTarget | iTwinLibrarySampleApp/EndpointManager.cs:331-340 | checked in order: a null document, links or file link is a null dereference, a missing file is file-not-found, a null or relative href is an invalid URL; when all checks pass the created document is the target |
| Library.AvailableFlips | iTwinLibrarySampleApp/LibraryManager.cs:571-576 | the document is created unavailable and updated as available, with the other fields copied from what the service returned |
| Library.LibraryManager.constructor | iTwinLibrarySampleApp/LibraryManager.cs:31-39 | the endpoint manager's headers are set and all five cleanup lists are empty |
| Library.LibraryManager.DisposalPlan | iTwinLibrarySampleApp/LibraryManager.cs:41-61 | disposal plans one deletion per remembered instance: components, then catalogs, categories, applications and manufacturers |
| Library.LibraryManager.GetComponents | iTwinLibrarySampleApp/LibraryManager.cs:85-113 | sends one GET of `/library/components` with the query, adding the persistent `Prefer` header, and returns the list-call outcome |
| Library.LibraryManager.GetCatalogs | iTwinLibrarySampleApp/LibraryManager.cs:125-148 | sends one GET of `/library/catalogs` with the search query and the `Prefer` header |
| Library.LibraryManager.GetCatalog | iTwinLibrarySampleApp/LibraryManager.cs:155-170 | sends one GET of `/library/catalogs/{id}` with the `Prefer` header and returns the single-call outcome |
| Library.LibraryManager.GetComponent | iTwinLibrarySampleApp/LibraryManager.cs:177-188 | sends one GET of the absolute URL with no extra header |
| Library.LibraryManager.GetComponentDocuments | iTwinLibrarySampleApp/LibraryManager.cs:195-207 | sends one GET of the component's documents and reads `documents` |
| Library.LibraryManager.GetComponentVariations | iTwinLibrarySampleApp/LibraryManager.cs:214-226 | sends one GET of the component's variations and reads `variations` |
| Library.LibraryManager.GetComponentWebLinks | iTwinLibrarySampleApp/LibraryManager.cs:233-245 | sends one GET of the component's `weblinks` and reads `webLinks` |
| Library.LibraryManager.CreateCatalog | iTwinLibrarySampleApp/LibraryManager.cs:256-273 | posts the given catalog or a default one; the result is remembered exactly when the creation succeeded and cleanup was asked for; the other lists are unchanged |
| Library.LibraryManager.CreateComponent | iTwinLibrarySampleApp/LibraryManager.cs:281-298 | posts the given body or a default one, reads a component back, and remembers it as above |
| Library.LibraryManager.CreateCategory | iTwinLibrarySampleApp/LibraryManager.cs:306-323 | as for catalogs, with categories |
| Library.LibraryManager.CreateApplication | iTwinLibrarySampleApp/LibraryManager.cs:331-348 | as for catalogs, with applications |
| Library.LibraryManager.CreateManufacturer | iTwinLibrarySampleApp/LibraryManager.cs:356-373 | as for catalogs, with manufacturers |
| Library.LibraryManager.CreateComponentDocument | iTwinLibrarySampleApp/LibraryManager.cs:380-392 | posts a document body and reads a document back; nothing is remembered |
| Library.LibraryManager.CreateComponentVariation | iTwinLibrarySampleApp/LibraryManager.cs:400-412 | posts a variation; nothing is remembered |
| Library.LibraryManager.CreateComponentWebLink | iTwinLibrarySampleApp/LibraryManager.cs:420-432 | posts a web link and reads `webLink`; nothing is remembered |
| Library.LibraryManager.UpdateCatalog | iTwinLibrarySampleApp/LibraryManager.cs:444-453 | sends one PUT of the catalog and succeeds exactly when the update call does |
| Library.LibraryManager.UpdateComponent | iTwinLibrarySampleApp/LibraryManager.cs:462-471 | sends one PUT of the component body and succeeds exactly when the two-type update does |
| Library.LibraryManager.UpdateComponentDocument | iTwinLibrarySampleApp/LibraryManager.cs:481-491 | sends one PUT of the document body and returns the updated document |
| Library.LibraryManager.DeleteResource | iTwinLibrarySampleApp/LibraryManager.cs:501-506 | sends one DELETE and accepts only 204 |
| Library.LibraryManager.DeleteCatalog | iTwinLibrarySampleApp/LibraryManager.cs:501-506 | DELETE of `/library/catalogs/{id}`, accepting only 204 |
| Library.LibraryManager.DeleteComponent | iTwinLibrarySampleApp/LibraryManager.cs:513-518 | DELETE of `/library/components/{id}`, accepting only 204 |
| Library.LibraryManager.DeleteCategory | iTwinLibrarySampleApp/LibraryManager.cs:525-530 | DELETE of `/library/categories/{id}`, accepting only 204 |
| Library.LibraryManager.DeleteApplication | iTwinLibrarySampleApp/LibraryManager.cs:537-542 | DELETE of `/library/applications/{id}`, accepting only 204 |
| Library.LibraryManager.DeleteManufacturer | iTwinLibrarySampleApp/LibraryManager.cs:549-554 | DELETE of `/library/manufacturers/{id}`, accepting only 204 |
| Library.LibraryManager.DeleteAll | iTwinLibrarySampleApp/LibraryManager.cs:44-45 | one cleanup loop: its outcome, remaining replies and requests sent are those of the disposal run over its plan |
| Library.LibraryManager.DeleteNext | iTwinLibrarySampleApp/LibraryManager.cs:43-61 | one more cleanup loop after lists deleted successfully gives the disposal run over all of them |
| Library.LibraryManager.DisposeAsync | iTwinLibrarySampleApp/LibraryManager.cs:41-64 | outcome, remaining replies and requests sent are exactly the disposal run over the plan: components, catalogs, categories, applications, manufacturers, stopping at the first failure |
| Library.LibraryManager.AddComponentDocument | iTwinLibrarySampleApp/LibraryManager.cs:567-580 | creates an unavailable document, checks the upload target, then PUTs the converted body marked available to the document's path; any failure stops at that step, with the requests sent so far; one reply is consumed when the create or the upload check fails, two when the PUT is made |

## Left out

- The file transfer itself: uploading to and downloading from blob storage (a fire-and-forget
  `WebClient`, `EndpointManager.cs:331-349`). Only the checks before the upload are modelled.
  `File.Exists` is a boolean parameter.
- The JSON library's parser, serialiser and `ToObject<T>` decoders. They are parameters, and
  round trips are proved for any codec that round-trips.
- The 5-second `Task.Delay` between fetches is counted (`delays`), not timed. The clock is a
  parameter.
- GUID generation: the GUIDs are parameters.
- Concurrency and async scheduling on the shared static client, console output and
  `Program.cs`.
- The workflows `CreateComponentWorkflow` and `UploadComponentToCatalogWorkflow`, and
  `AddComponentVariation` with its ad-hoc properties. These are demonstration scripts that
  only chain the modelled operations.
- `Link.cs`, `UploadComponent.cs` and `UploadComponentPost.cs` are not part of this model
  beyond the `href` field of a link.
- The empty `TooManyRequests` (429) branches do nothing, so a 429 is classified like any
  other non-success status.
- The custom-header dictionary is a sequence of pairs. .NET's header-name validation and the
  merging of repeated header names are not modelled.
- Naming.Lower: only ASCII letters are lower-cased; culture-specific and non-ASCII case
  mappings of `ToLower` are not modelled (every type name involved is ASCII).
- Components.ConvertToComponentPost: a null receiver is not modelled; the extension method
  is only called on components read back from the service.
- Endpoint.EndpointManager.GetJobAfterCompletion: keeps the wall-clock-minute deadline as
  written (see Findings); the corrected deadline is proved about the poll specification.
  A null job URL is not modelled.

## Findings

| source | as written | input that shows it | evidently intended | confidence | as-written member | corrected member |
|---|---|---|---|---|---|---|
| iTwinLibrarySampleApp/EndpointManager.cs:356-394 | the deadline is the current minute of the hour plus 5, and the loop runs while the current minute is below it | a poll started at minute 55 or later of the hour: the minute wraps to 0 and never reaches the deadline (60 or more), so a job that stays in progress is polled until it finishes or the network fails | stop after 5 minutes of elapsed time | not executed | Polling.MinuteDeadlineOverrun | Polling.ElapsedExpiryBoundsFetches |

`Polling.MinuteExpiry` is the deadline test as written, and `Polling.LateStartNeverExpires`
proves that it never fires after a late start. `Polling.ElapsedExpiry` is the intended
test. `Polling.ElapsedExpiryBoundsFetches` proves it bounds the number of fetches for any
monotone clock. The endpoint method keeps the written behaviour, so the model stays
faithful to the code.

=== FILE: component_post.dfy ===
/** The request body of a component create or update. */
module ComponentPosts {
  import opened Wrappers
  import opened Models

  datatype ComponentPost = ComponentPost(
    displayName: Option<string>,
    description: Option<string>,
    state: ComponentState,
    hashtags: Option<seq<string>>,
    catalogs: Option<seq<string>>,
    category: Option<string>,
    application: Option<string>,
    manufacturer: Option<string>)

  /** `new ComponentPost()`: a GUID-named draft with a GUID description and one
      50-character GUID hashtag, referencing nothing. The three GUIDs are drawn in the
      order name, description, hashtag. */
  function NewComponentPost(g: Guids): (p: ComponentPost)
    ensures p.displayName == Some(NamePrefix + g.first)
    ensures p.description == Some(DescriptionPrefix + g.second)
    ensures p.hashtags.Some? && |p.hashtags.value| == 1
    ensures |p.hashtags.value[0]| == 50 && HashtagPrefix <= p.hashtags.value[0]
    ensures p.state == Draft
    ensures p.catalogs.None? && p.category.None? && p.application.None? && p.manufacturer.None?
  {
    ComponentPost(Some(NamePrefix + g.first), Some(DescriptionPrefix + g.second), Draft,
      Some([Hashtag(g.third)]), None, None, None, None)
  }

  /** `new ComponentPost(catalogs, category, application, manufacturer)`: the default
      body with the four references set. */
  function NewComponentPostWith(catalogs: Option<seq<string>>, category: Option<string>,
                                application: Option<string>, manufacturer: Option<string>, g: Guids): (p: ComponentPost)
    ensures p.catalogs == catalogs && p.category == category
    ensures p.application == application && p.manufacturer == manufacturer
    ensures p.(catalogs := None, category := None, application := None, manufacturer := None) == NewComponentPost(g)
  {
    NewComponentPost(g).(catalogs := catalogs, category := category, application := application, manufacturer := manufacturer)
  }

  /** Two default bodies drawn with different name GUIDs have different display names. */
  lemma DistinctGuidsGiveDistinctNames(g1: Guids, g2: Guids)
    requires g1.first != g2.first
    ensures NewComponentPost(g1).displayName != NewComponentPost(g2).displayName
  {
    assert (NamePrefix + g1.first)[|NamePrefix|..] == g1.first;
    assert (NamePrefix + g2.first)[|NamePrefix|..] == g2.first;
  }

  /** The hashtag keeps only the first 31 characters of its GUID: two hashtags are equal
      exactly when their GUIDs agree on those. */
  lemma HashtagKeepsGuidPrefix(g1: GuidText, g2: GuidText)
    ensures Hashtag(g1) == Hashtag(g2) <==> g1[..31] == g2[..31]
  {
    assert |HashtagPrefix| == 19;
    assert Hashtag(g1) == HashtagPrefix + g1[..31];
    assert Hashtag(g2) == HashtagPrefix + g2[..31];
    if Hashtag(g1) == Hashtag(g2) {
      assert Hashtag(g1)[19..] == g1[..31];
      assert Hashtag(g2)[19..] == g2[..31];
    }
  }
}

=== FILE: components.dfy ===
/** Turning a component read from the service back into a request body: the
    descriptive fields are copied and the referenced entities' ids are pulled out of
    their link URLs. */
module Components {
  import opened Wrappers
  import opened Models
  import opened Http
  import opened Uris
  import opened ComponentPosts

  /** The ids of the catalog links, in order: the last segment of each href that is an
      absolute URL, the others dropped. None when a link is null (the loop dereferences
      it). */
  function CatalogIds(links: seq<Option<Link>>, uri: UriParser): (r: Option<seq<string>>)
    ensures r.None? <==> None in links
    ensures r.Some? ==> |r.value| <= |links|
    decreases |links|
  {
    if links == [] then Some([])
    else
      var front := CatalogIds(links[..|links| - 1], uri);
      assert links == links[..|links| - 1] + [links[|links| - 1]];
      match links[|links| - 1]
      case None => None
      case Some(l) =>
        if front.None? then None
        else match GetLastSegmentFromUrl(uri, l.href)
          case None => front
          case Some(id) => Some(front.value + [id])
  }

  /** Catalog ids of a concatenation are those of the parts, in order. */
  lemma {:induction false} CatalogIdsAppend(a: seq<Option<Link>>, b: seq<Option<Link>>, uri: UriParser)
    requires None !in a && None !in b
    ensures CatalogIds(a + b, uri) == Some(CatalogIds(a, uri).value + CatalogIds(b, uri).value)
    decreases |b|
  {
    if b == [] {
      assert a + b == a;
      assert CatalogIds(b, uri) == Some([]);
      assert CatalogIds(a, uri).value + [] == CatalogIds(a, uri).value;
    } else {
      var b' := b[..|b| - 1];
      assert b == b' + [b[|b| - 1]];
      assert (a + b)[..|a + b| - 1] == a + b';
      assert (a + b)[|a + b| - 1] == b[|b| - 1];
      assert None !in b';
      CatalogIdsAppend(a, b', uri);
      var l := b[|b| - 1].value;
      var ia, ib' := CatalogIds(a, uri).value, CatalogIds(b', uri).value;
      match GetLastSegmentFromUrl(uri, l.href)
      case None =>
      case Some(id) =>
        assert CatalogIds(b, uri) == Some(ib' + [id]);
        assert (ia + ib') + [id] == ia + (ib' + [id]);
    }
  }

  /** Every catalog id comes from a link of the list whose href ends in it. */
  lemma {:induction false} CatalogIdsSound(links: seq<Option<Link>>, uri: UriParser, k: int)
    requires None !in links && 0 <= k < |CatalogIds(links, uri).value|
    ensures exists i :: (0 <= i < |links| && links[i].Some?
                        && GetLastSegmentFromUrl(uri, links[i].value.href) == Some(CatalogIds(links, uri).value[k]))
    decreases |links|
  {
    var front := links[..|links| - 1];
    assert links == front + [links[|links| - 1]];
    assert None !in front;
    var last := links[|links| - 1].value;
    if k < |CatalogIds(front, uri).value| {
      CatalogIdsSound(front, uri, k);
      var i :| 0 <= i < |front| && front[i].Some?
        && GetLastSegmentFromUrl(uri, front[i].value.href) == Some(CatalogIds(front, uri).value[k]);
      assert links[i] == front[i];
    } else {
      assert GetLastSegmentFromUrl(uri, last.href).Some?;
      assert links[|links| - 1].Some?;
    }
  }

  /** When every href is an absolute URL nothing is dropped: one id per link, in order. */
  lemma {:induction false} CatalogIdsComplete(links: seq<Option<Link>>, uri: UriParser)
    requires forall i :: 0 <= i < |links| ==> links[i].Some? && GetLastSegmentFromUrl(uri, links[i].value.href).Some?
    ensures CatalogIds(links, uri).Some? && |CatalogIds(links, uri).value| == |links|
    ensures forall i :: 0 <= i < |links| ==>
      Some(CatalogIds(links, uri).value[i]) == GetLastSegmentFromUrl(uri, links[i].value.href)
    decreases |links|
  {
    if links != [] {
      var front := links[..|links| - 1];
      CatalogIdsComplete(front, uri);
      assert None !in links by {
        forall i | 0 <= i < |links| ensures links[i] != None {}
      }
    }
  }

  /** No id at all exactly when no href of the list is an absolute URL. */
  lemma {:induction false} CatalogIdsEmpty(links: seq<Option<Link>>, uri: UriParser)
    requires None !in links
    ensures CatalogIds(links, uri) == Some([]) <==>
      forall i :: 0 <= i < |links| ==> GetLastSegmentFromUrl(uri, links[i].value.href).None?
    decreases |links|
  {
    if links != [] {
      var front := links[..|links| - 1];
      assert links == front + [links[|links| - 1]];
      assert None !in front;
      CatalogIdsEmpty(front, uri);
      assert forall i :: 0 <= i < |front| ==> front[i] == links[i];
    }
  }

  /** The catalogs field the conversion sets: the ids, or unset when there are none. */
  function CatalogsField(links: ComponentLinks, uri: UriParser): (r: Option<seq<string>>)
    requires links.catalogs.Some? ==> None !in links.catalogs.value
    ensures r.Some? ==> links.catalogs.Some? && r == CatalogIds(links.catalogs.value, uri) && r.value != []
    ensures links.catalogs.Some? && CatalogIds(links.catalogs.value, uri).value != [] ==>
      r == CatalogIds(links.catalogs.value, uri)
  {
    match links.catalogs
    case None => None
    case Some(cs) =>
      var ids := CatalogIds(cs, uri).value;
      if ids == [] then None else Some(ids)
  }

  /** The body that updates `component`: name, description, hashtags and state copied;
      when the component has links, category, manufacturer and application are the
      last segments of their hrefs and catalogs the non-empty list of catalog ids.
      The default body's GUID fields are all overwritten, so `g` does not matter. */
  method ConvertToComponentPost(component: Component, g: Guids, uri: UriParser) returns (r: Result<ComponentPost, Failure>)
    ensures r.Failure? <==> (component.links.Some? && component.links.value.catalogs.Some?
                             && None in component.links.value.catalogs.value)
    ensures r.Failure? ==> r.error == NullReference("catalog link")
    ensures r.Success? ==> r.value.displayName == component.displayName && r.value.description == component.description
    ensures r.Success? ==> r.value.hashtags == component.hashtags && r.value.state == component.state
    ensures r.Success? && component.links.None? ==>
              r.value.category.None? && r.value.manufacturer.None? && r.value.application.None? && r.value.catalogs.None?
    ensures r.Success? && component.links.Some? ==>
              r.value.category == GetLastSegmentFromUrl(uri, HrefOf(component.links.value.category))
    ensures r.Success? && component.links.Some? ==>
              r.value.manufacturer == GetLastSegmentFromUrl(uri, HrefOf(component.links.value.manufacturer))
    ensures r.Success? && component.links.Some? ==>
              r.value.application == GetLastSegmentFromUrl(uri, HrefOf(component.links.value.application))
    ensures r.Success? && component.links.Some? ==> r.value.catalogs == CatalogsField(component.links.value, uri)
  {
    var post := NewComponentPost(g).(displayName := component.displayName, description := component.description,
      hashtags := component.hashtags, state := component.state);
    if component.links.Some? {
      var links := component.links.value;
      post := post.(category := GetLastSegmentFromUrl(uri, HrefOf(links.category)));
      post := post.(manufacturer := GetLastSegmentFromUrl(uri, HrefOf(links.manufacturer)));
      post := post.(application := GetLastSegmentFromUrl(uri, HrefOf(links.application)));
      if links.catalogs.Some? && |links.catalogs.value| > 0 {
        var cs := links.catalogs.value;
        var catalogs: seq<string> := [];
        for i := 0 to |cs|
          invariant CatalogIds(cs[..i], uri) == Some(catalogs)
        {
          assert cs[..i + 1][..i] == cs[..i];
          if cs[i].None? {
            CatalogIdsNoneGrows(cs, i + 1, uri);
            return Failure(NullReference("catalog link"));
          }
          var catalogId := GetLastSegmentFromUrl(uri, cs[i].value.href);
          if catalogId.Some? {
            catalogs := catalogs + [catalogId.value];
          }
        }
        assert cs[..|cs|] == cs;
        if |catalogs| > 0 {
          post := post.(catalogs := Some(catalogs));
        }
      }
    }
    return Success(post);
  }

  /** A null link in a prefix makes the whole list fail. */
  lemma CatalogIdsNoneGrows(cs: seq<Option<Link>>, n: nat, uri: UriParser)
    requires n <= |cs| && None in cs[..n]
    ensures None in cs
  {
    var j :| 0 <= j < n && cs[..n][j] == None;
    assert cs[j] == None;
  }
}

=== FILE: document_post.dfy ===
/** The request body of a document create or update. */
module DocumentPosts {
  import opened Wrappers
  import opened Models

  datatype DocumentPost = DocumentPost(
    displayName: Option<string>,
    extension: Option<string>,
    purpose: Purpose,
    available: bool,
    isActive: bool,
    version: Option<string>,
    previousVersionId: Option<string>,
    associatedDesignDocument: Option<string>)

  /** `new DocumentPost(purpose, ext)`: a GUID-named, active, not yet available first
      version of a document of the given purpose and extension. */
  function NewDocumentPost(purpose: Purpose, ext: Option<string>, g: Guids): (p: DocumentPost)
    ensures p.purpose == purpose && p.extension == ext
    ensures p.displayName == Some(NamePrefix + g.first)
    ensures !p.available && p.isActive && p.version == Some("v1")
    ensures p.previousVersionId.None? && p.associatedDesignDocument.None?
  {
    DocumentPost(Some(NamePrefix + g.first), ext, purpose, false, true, Some("v1"), None, None)
  }

  /** Two bodies drawn with different GUIDs have different display names. */
  lemma DistinctGuidsGiveDistinctNames(purpose: Purpose, ext: Option<string>, g1: Guids, g2: Guids)
    requires g1.first != g2.first
    ensures NewDocumentPost(purpose, ext, g1).displayName != NewDocumentPost(purpose, ext, g2).displayName
  {
    assert (NamePrefix + g1.first)[|NamePrefix|..] == g1.first;
    assert (NamePrefix + g2.first)[|NamePrefix|..] == g2.first;
  }
}

=== FILE: documents.dfy ===
/** Turning a document read from the service back into a request body. */
module Documents {
  import opened Wrappers
  import opened Models
  import opened Uris
  import opened DocumentPosts

  /** The body that updates `d`: purpose and extension go through the constructor,
      name, availability, activity and version are copied over the constructor's
      defaults, the design-document id is the last segment of its link when the
      document has links, and the previous version id is never copied. */
  function ConvertToDocumentPost(d: Document, g: Guids, uri: UriParser): (p: DocumentPost)
    ensures p.purpose == d.purpose && p.extension == d.extension
    ensures p.displayName == d.displayName && p.available == d.available
    ensures p.isActive == d.isActive && p.version == d.version
    ensures p.previousVersionId.None?
    ensures d.links.None? ==> p.associatedDesignDocument.None?
    ensures d.links.Some? ==>
              p.associatedDesignDocument == GetLastSegmentFromUrl(uri, HrefOf(d.links.value.associatedDesignDocument))
  {
    var post := NewDocumentPost(d.purpose, d.extension, g).(displayName := d.displayName,
      available := d.available, isActive := d.isActive, version := d.version);
    if d.links.Some? then
      post.(associatedDesignDocument := GetLastSegmentFromUrl(uri, HrefOf(d.links.value.associatedDesignDocument)))
    else post
  }

  /** A document that echoes a body without links or previous version converts back to
      that very body. */
  lemma EchoRoundTrip(p: DocumentPost, d: Document, g: Guids, uri: UriParser)
    requires p.previousVersionId.None? && p.associatedDesignDocument.None? && d.links.None?
    requires d.displayName == p.displayName && d.extension == p.extension && d.purpose == p.purpose
    requires d.available == p.available && d.isActive == p.isActive && d.version == p.version
    ensures ConvertToDocumentPost(d, g, uri) == p
  {
  }

  /** The GUID the constructor draws never shows in the result, and the links only
      decide the design-document id. */
  lemma GuidAndLinksIrrelevant(d: Document, g1: Guids, g2: Guids, uri: UriParser)
    ensures var p := ConvertToDocumentPost(d, g1, uri);
      ConvertToDocumentPost(d.(links := None), g2, uri) == p.(associatedDesignDocument := None)
  {
  }
}

=== FILE: endpoint.dfy ===
/** The endpoint manager: every REST call of the sample goes through it. It owns the
    alias table of envelope keys and shares one `HttpClient` with every other
    instance; each call first appends the caller's custom headers to the client's
    default headers (where they stay for every later call), then sends one request and
    classifies the reply as the `Responses` functions say. */
module Endpoint {
  import opened Wrappers
  import opened Models
  import opened Json
  import opened Http
  import opened Naming
  import opened Responses
  import opened Polling

  /** The headers a call adds: none for a null dictionary, else its entries in order. */
  function CustomHeaders(custom: Option<seq<Header>>): (h: seq<Header>)
    ensures custom.None? ==> h == []
    ensures custom.Some? ==> h == custom.value
  {
    custom.GetOr([])
  }

  class EndpointManager {
    const client: HttpClient
    const containerMap: map<string, string>

    /** Resets the shared client's default headers to the media type and the caller's
        token, and installs the alias table. */
    constructor (token: string, client: HttpClient)
      modifies client
      ensures this.client == client && containerMap == Aliases
      ensures client.defaultHeaders == [("Accept", AcceptHeader), ("Authorization", token)]
      ensures client.sent == old(client.sent) && client.pending == old(client.pending)
    {
      this.client := client;
      containerMap := Aliases;
      new;
      client.ClearHeaders();
      client.AddHeader("Accept", AcceptHeader);
      client.AddHeader("Authorization", token);
    }

    /** Appends every custom header to the shared client's default headers. */
    method AddCustomHeaders(custom: Option<seq<Header>>)
      modifies client
      ensures client.defaultHeaders == old(client.defaultHeaders) + CustomHeaders(custom)
      ensures client.sent == old(client.sent) && client.pending == old(client.pending)
    {
      if custom.Some? {
        var headers := custom.value;
        for i := 0 to |headers|
          invariant client.defaultHeaders == old(client.defaultHeaders) + headers[..i]
          invariant client.sent == old(client.sent) && client.pending == old(client.pending)
        {
          client.AddHeader(headers[i].0, headers[i].1);
          assert headers[..i + 1] == headers[..i] + [headers[i]];
        }
        assert headers[..|headers|] == headers;
      }
    }

    /** GET of a list under `API_BASE_URL + relativeUrl`. The pagination links are read
        before the elements, which are decoded one by one in order. */
    method MakeGetCall<T>(relativeUrl: string, custom: Option<seq<Header>>, lib: JsonLib, codec: Codec<T>)
      returns (res: Result<ListResponse<T>, Failure>)
      modifies client
      ensures client.defaultHeaders == old(client.defaultHeaders) + CustomHeaders(custom)
      ensures client.sent == old(client.sent) + [Request(Get, ApiBaseUrl + relativeUrl, client.defaultHeaders, None)]
      ensures client.pending == Tail(old(client.pending))
      ensures res == GetResult(Head(old(client.pending)), lib, ContainerKey(containerMap, codec.typeName, true), codec.decode)
    {
      AddCustomHeaders(custom);
      var reply := client.Send(Get, ApiBaseUrl + relativeUrl, None);
      if reply.None? {
        return Failure(TransportError);
      }
      var rep := reply.value;
      var parsed := lib.parse(rep.content);
      if parsed.None? {
        return Failure(MalformedBody);
      }
      var payload := parsed.value;
      if rep.status != OK {
        var error := ErrorOf(payload, lib);
        if error.Failure? {
          return Failure(error.error);
        }
        return Success(ListResponse(rep.status, rep.content, error.value, None, None));
      }
      var key := ContainerKey(containerMap, codec.typeName, true);
      var links := Sibling(payload, "_links", lib.paginationLinks);
      if links.Failure? {
        return Failure(links.error);
      }
      if key !in payload {
        return Failure(EnvelopeKeyMissing(key));
      }
      var elements := Elements(payload[key]);
      if elements.None? {
        return Failure(DecodeError(key));
      }
      var items := elements.value;
      var instances: seq<Option<T>> := [];
      var i := 0;
      while i < |items|
        invariant 0 <= i <= |items|
        invariant DecodeAll(items[..i], key, codec.decode) == Success(instances)
      {
        var inst := DecodeToken(items[i], key, codec.decode);
        if inst.Failure? {
          return Failure(DecodeError(key));
        }
        assert items[..i + 1][..i] == items[..i];
        instances := instances + [inst.value];
        i := i + 1;
      }
      assert items[..i] == items;
      return Success(ListResponse(rep.status, rep.content, None, Some(instances), links.value));
    }

    /** GET of a single entity under `API_BASE_URL + relativeUrl`. */
    method MakeGetSingleCall<T>(relativeUrl: string, custom: Option<seq<Header>>, lib: JsonLib, codec: Codec<T>)
      returns (res: Result<SingleResponse<T>, Failure>)
      modifies client
      ensures client.defaultHeaders == old(client.defaultHeaders) + CustomHeaders(custom)
      ensures client.sent == old(client.sent) + [Request(Get, ApiBaseUrl + relativeUrl, client.defaultHeaders, None)]
      ensures client.pending == Tail(old(client.pending))
      ensures res == SingleResult(Head(old(client.pending)), lib, ContainerKey(containerMap, codec.typeName, false), codec.decode)
    {
      AddCustomHeaders(custom);
      res := MakeGetSingleCallAt(ApiBaseUrl + relativeUrl, lib, codec);
    }

    /** GET of a single entity at an absolute URL; no custom headers are added. */
    method MakeGetSingleCallAt<T>(url: string, lib: JsonLib, codec: Codec<T>)
      returns (res: Result<SingleResponse<T>, Failure>)
      modifies client
      ensures client.defaultHeaders == old(client.defaultHeaders)
      ensures client.sent == old(client.sent) + [Request(Get, url, client.defaultHeaders, None)]
      ensures client.pending == Tail(old(client.pending))
      ensures res == SingleResult(Head(old(client.pending)), lib, ContainerKey(containerMap, codec.typeName, false), codec.decode)
    {
      var reply := client.Send(Get, url, None);
      res := SingleResult(reply, lib, ContainerKey(containerMap, codec.typeName, false), codec.decode);
    }

    /** POST of `model`, reading back an instance of the same type. */
    method MakePostCall<T>(relativeUrl: string, model: T, custom: Option<seq<Header>>, lib: JsonLib, codec: Codec<T>)
      returns (res: Result<PostResponse<T>, Failure>)
      modifies client
      ensures client.defaultHeaders == old(client.defaultHeaders) + CustomHeaders(custom)
      ensures client.sent == old(client.sent) + [Request(Post, ApiBaseUrl + relativeUrl, client.defaultHeaders, Some(codec.encode(model)))]
      ensures client.pending == Tail(old(client.pending))
      ensures res == PostResult(Head(old(client.pending)), lib, ContainerKey(containerMap, codec.typeName, false), codec.decode, model)
    {
      AddCustomHeaders(custom);
      var reply := client.Send(Post, ApiBaseUrl + relativeUrl, Some(codec.encode(model)));
      res := PostResult(reply, lib, ContainerKey(containerMap, codec.typeName, false), codec.decode, model);
    }

    /** POST of `model`, reading back an instance of another type. */
    method MakePostCallAs<TIn, TOut>(relativeUrl: string, model: TIn, custom: Option<seq<Header>>, lib: JsonLib,
                                     input: Codec<TIn>, output: Codec<TOut>)
      returns (res: Result<PostResponse<TOut>, Failure>)
      modifies client
      ensures client.defaultHeaders == old(client.defaultHeaders) + CustomHeaders(custom)
      ensures client.sent == old(client.sent) + [Request(Post, ApiBaseUrl + relativeUrl, client.defaultHeaders, Some(input.encode(model)))]
      ensures client.pending == Tail(old(client.pending))
      ensures res == PostAsResult(Head(old(client.pending)), lib, ContainerKey(containerMap, output.typeName, false), output.decode)
    {
      AddCustomHeaders(custom);
      var reply := client.Send(Post, ApiBaseUrl + relativeUrl, Some(input.encode(model)));
      res := PostAsResult(reply, lib, ContainerKey(containerMap, output.typeName, false), output.decode);
    }

    /** PUT of `model`, reading back an instance of another type. */
    method MakePutCallAs<TIn, TOut>(relativeUrl: string, model: TIn, custom: Option<seq<Header>>, lib: JsonLib,
                                    input: Codec<TIn>, output: Codec<TOut>)
      returns (res: Result<UpdateResponse<TOut>, Failure>)
      modifies client
      ensures client.defaultHeaders == old(client.defaultHeaders) + CustomHeaders(custom)
      ensures client.sent == old(client.sent) + [Request(Put, ApiBaseUrl + relativeUrl, client.defaultHeaders, Some(input.encode(model)))]
      ensures client.pending == Tail(old(client.pending))
      ensures res == PutAsResult(Head(old(client.pending)), lib, ContainerKey(containerMap, output.typeName, false), output.decode)
    {
      AddCustomHeaders(custom);
      var reply := client.Send(Put, ApiBaseUrl + relativeUrl, Some(input.encode(model)));
      res := PutAsResult(reply, lib, ContainerKey(containerMap, output.typeName, false), output.decode);
    }

    /** PUT of `model`, reading back an instance of the same type. */
    method MakePutCall<T>(relativeUrl: string, model: T, custom: Option<seq<Header>>, lib: JsonLib, codec: Codec<T>)
      returns (res: Result<UpdateResponse<T>, Failure>)
      modifies client
      ensures client.defaultHeaders == old(client.defaultHeaders) + CustomHeaders(custom)
      ensures client.sent == old(client.sent) + [Request(Put, ApiBaseUrl + relativeUrl, client.defaultHeaders, Some(codec.encode(model)))]
      ensures client.pending == Tail(old(client.pending))
      ensures res == PutResult(Head(old(client.pending)), lib, ContainerKey(containerMap, codec.typeName, false), codec.decode)
    {
      AddCustomHeaders(custom);
      var reply := client.Send(Put, ApiBaseUrl + relativeUrl, Some(codec.encode(model)));
      res := PutResult(reply, lib, ContainerKey(containerMap, codec.typeName, false), codec.decode);
    }

    /** DELETE of the resource under `API_BASE_URL + relativeUrl`. */
    method MakeDeleteCall(relativeUrl: string, custom: Option<seq<Header>>, lib: JsonLib)
      returns (res: Result<DeleteResponse, Failure>)
      modifies client
      ensures client.defaultHeaders == old(client.defaultHeaders) + CustomHeaders(custom)
      ensures client.sent == old(client.sent) + [Request(Delete, ApiBaseUrl + relativeUrl, client.defaultHeaders, None)]
      ensures client.pending == Tail(old(client.pending))
      ensures res == DeleteResult(Head(old(client.pending)), lib)
    {
      AddCustomHeaders(custom);
      var reply := client.Send(Delete, ApiBaseUrl + relativeUrl, None);
      res := DeleteResult(reply, lib);
    }

    /** Fetches the job at `jobUrl` until it succeeds, fails, is rejected or the
        deadline (the starting minute of the hour plus five) passes. `clock(k)` is the
        minute of the hour read after the k-th fetch, `clock(0)` the one read first.
        Returns how the wait ended and how many pauses it took; the requests sent are
        the fetches. */
    method GetJobAfterCompletion(jobUrl: string, clock: nat -> Minute, lib: JsonLib, dec: Decoder<Job>)
      returns (outcome: PollOutcome, delays: nat)
      modifies client
      ensures var fetches := |client.sent| - |old(client.sent)|;
        fetches >= 0 && PollResult(outcome, fetches, delays) == PollFrom(MinuteExpiry(clock), old(client.pending), 0, lib, dec)
      ensures client.defaultHeaders == old(client.defaultHeaders)
      ensures client.sent == old(client.sent)
        + Repeat(Request(Get, jobUrl, old(client.defaultHeaders), None), |client.sent| - |old(client.sent)|)
      ensures client.pending == Drop(old(client.pending), |client.sent| - |old(client.sent)|)
    {
      ghost var script := client.pending;
      ghost var total := PollFrom(MinuteExpiry(clock), script, 0, lib, dec);
      ghost var request := Request(Get, jobUrl, client.defaultHeaders, None);
      var maxTimeToWait := clock(0) + MaxWaitMinutes;
      var done: nat := 0;
      delays := 0;
      while true
        invariant done <= |script|
        invariant client.defaultHeaders == old(client.defaultHeaders)
        invariant client.pending == Drop(script, done)
        invariant client.sent == old(client.sent) + Repeat(request, done)
        invariant total.outcome == PollFrom(MinuteExpiry(clock), Drop(script, done), done, lib, dec).outcome
        invariant total.fetches == PollFrom(MinuteExpiry(clock), Drop(script, done), done, lib, dec).fetches
        invariant total.delays == PollFrom(MinuteExpiry(clock), Drop(script, done), done, lib, dec).delays + delays
        decreases |script| - done
      {
        ghost var rest := Drop(script, done);
        var reply := client.Send(Get, jobUrl, None);
        var e := Examine(reply, lib, dec);
        done := done + 1;
        assert client.sent == old(client.sent) + Repeat(request, done);
        match e {
          case Threw(f) =>
            outcome := Failed(f);
            return;
          case Broke(resp) =>
            outcome := Finished(resp);
            return;
          case Observed(resp, s) =>
            assert rest != [] && rest[1..] == Drop(script, done);
            if ShouldDelay(s) {
              delays := delays + 1;
            }
            if !(clock(done) < maxTimeToWait && s != JobStatusSuccess) {
              outcome := Finished(resp);
              return;
            }
        }
      }
    }
  }
}

=== FILE: http.dfy ===
/** The HTTP side of the endpoint layer: requests, replies, the failures a call can
    end in, and the shared `HttpClient`. The network itself is a script: the client
    answers each request with the next scripted reply and fails with a transport error
    once the script is exhausted. Every request sent is recorded, with the default
    headers it carried. */
module Http {
  import opened Wrappers
  import opened Models
  import opened Json

  type Header = (string, string)

  datatype Verb = Get | Post | Put | Delete

  datatype Request = Request(verb: Verb, url: string, headers: seq<Header>, body: Option<Json>)

  /** What the server answered: status code, body text, response headers. */
  datatype Reply = Reply(status: int, content: string, headers: seq<Header>)

  const OK: int := 200
  const Created: int := 201
  const Accepted: int := 202
  const NoContent: int := 204
  const TooManyRequests: int := 429

  const ApiBaseUrl: string := "https://api.bentley.com"
  const AcceptHeader: string := "application/vnd.bentley.itwin-platform.v1+json"

  /** Everything a call can throw. */
  datatype Failure =
    | TransportError
    | MalformedBody
    | EnvelopeKeyMissing(key: string)
    | DecodeError(key: string)
    | NullReference(what: string)
    | JobFailed(job: Job)
    | FileNotFound(path: string)
    | InvalidUrl(url: Option<string>)
    | StatusRejected(status: int, errorDetails: Option<ErrorDetails>)

  /** The first element, if any. */
  function Head<T>(s: seq<T>): (r: Option<T>)
    ensures r.Some? <==> s != []
    ensures r.Some? ==> r.value == s[0]
  {
    if s == [] then None else Some(s[0])
  }

  /** All but the first element; empty stays empty. */
  function Tail<T>(s: seq<T>): (r: seq<T>)
    ensures s != [] ==> r == s[1..]
    ensures s == [] ==> r == []
  {
    if s == [] then [] else s[1..]
  }

  /** What is left after `n` elements have been taken. */
  function Drop<T>(s: seq<T>, n: nat): (r: seq<T>)
    ensures n <= |s| ==> r == s[n..]
    ensures n >= |s| ==> r == []
  {
    if n <= |s| then s[n..] else []
  }

  /** `n` copies of `x`. */
  function Repeat<T>(x: T, n: nat): (r: seq<T>)
    ensures |r| == n && forall i :: 0 <= i < n ==> r[i] == x
  {
    if n == 0 then [] else Repeat(x, n - 1) + [x]
  }

  /** The process-wide `HttpClient`: its default request headers, the log of requests
      it sent and the replies the network still has to give. */
  class HttpClient {
    var defaultHeaders: seq<Header>
    var sent: seq<Request>
    var pending: seq<Reply>

    constructor (script: seq<Reply>)
      ensures defaultHeaders == [] && sent == [] && pending == script
    {
      defaultHeaders, sent, pending := [], [], script;
    }

    /** `DefaultRequestHeaders.Clear()`. */
    method ClearHeaders()
      modifies this
      ensures defaultHeaders == [] && sent == old(sent) && pending == old(pending)
    {
      defaultHeaders := [];
    }

    /** `DefaultRequestHeaders.Add(name, value)`: the header is appended. */
    method AddHeader(name: string, value: string)
      modifies this
      ensures defaultHeaders == old(defaultHeaders) + [(name, value)]
      ensures sent == old(sent) && pending == old(pending)
    {
      defaultHeaders := defaultHeaders + [(name, value)];
    }

    /** Sends one request with the current default headers and takes the next reply;
        None is a transport failure (no reply left). */
    method Send(verb: Verb, url: string, body: Option<Json>) returns (reply: Option<Reply>)
      modifies this
      ensures sent == old(sent) + [Request(verb, url, defaultHeaders, body)]
      ensures defaultHeaders == old(defaultHeaders)
      ensures reply == Head(old(pending)) && pending == Tail(old(pending))
    {
      sent := sent + [Request(verb, url, defaultHeaders, body)];
      if pending == [] {
        reply := None;
      } else {
        reply := Some(pending[0]);
        pending := pending[1..];
      }
    }
  }
}

=== FILE: json.dfy ===
/** JSON as the endpoint layer sees it. Parsing, decoding into typed objects and
    serialising request bodies are done by foreign libraries (Json.NET and
    System.Text.Json); here they are injected functions. A decoder returns None where
    the library would throw. */
module Json {
  import opened Wrappers
  import opened Models

  datatype Json =
    | Null
    | Bool(b: bool)
    | Number(n: int)
    | Str(s: string)
    | Arr(items: seq<Json>)
    | Obj(fields: map<string, Json>)

  /** A parsed response body (`JObject`): property name to value. */
  type JsonObject = map<string, Json>

  /** `token.ToObject<T>()`: None when the library throws. */
  type Decoder<T> = Json -> Option<T>

  /** One data class as the JSON layer sees it: its C# type name (from which the
      envelope key is derived), the decoder of a payload and the serialiser of a request
      body. */
  datatype Codec<!T> = Codec(typeName: string, decode: Decoder<T>, encode: T -> Json)

  /** The decoder reads back what the serialiser writes, and a serialised instance is a
      JSON object (never a JSON null). */
  ghost predicate RoundTrips<T(!new)>(c: Codec<T>) {
    forall x :: c.encode(x).Obj? && c.decode(c.encode(x)) == Some(x)
  }

  /** The library functions every call needs: `JObject.Parse` (None when the text is
      not a JSON object) and the decoders of the two fixed sibling shapes. */
  datatype JsonLib = JsonLib(
    parse: string -> Option<JsonObject>,
    errorDetails: Decoder<ErrorDetails>,
    paginationLinks: Decoder<PaginationLinks>)

  /** The tokens a C# `foreach` visits over a JSON token: the items of an array, nothing
      for a scalar or null (a `JValue` has no children), the properties of an object.
      Properties are not values of the element type, so a non-empty object yields None
      (decoding a property throws). */
  function Elements(j: Json): (r: Option<seq<Json>>)
    ensures j.Arr? ==> r == Some(j.items)
    ensures r.None? <==> j.Obj? && j.fields != map[]
    ensures !j.Arr? && !(j.Obj? && j.fields != map[]) ==> r == Some([])
  {
    match j
    case Arr(items) => Some(items)
    case Obj(fields) => if fields == map[] then Some([]) else None
    case _ => Some([])
  }
}

=== FILE: library.dfy ===
/** The library manager: one method per service operation, each accepting exactly one
    status and throwing on any other; creations optionally remember what they created
    in one of five cleanup lists, which disposal drains in a fixed order. */
module Library {
  import opened Wrappers
  import opened Models
  import opened Json
  import opened Http
  import opened Naming
  import opened Uris
  import opened Responses
  import opened Endpoint
  import opened ComponentPosts
  import opened DocumentPosts
  import opened Documents

  /** The JSON codecs of every data class, the JSON library and the URI parser. */
  datatype Codecs = Codecs(
    lib: JsonLib,
    uri: UriParser,
    catalog: Codec<Catalog>,
    component: Codec<Component>,
    componentPost: Codec<ComponentPost>,
    category: Codec<Category>,
    application: Codec<Application>,
    manufacturer: Codec<Manufacturer>,
    document: Codec<Document>,
    documentPost: Codec<DocumentPost>,
    variation: Codec<Variation>,
    webLink: Codec<WebLink>)

  /** Each codec carries the C# name of its class, from which envelope keys derive. */
  predicate Named(c: Codecs) {
    c.catalog.typeName == "Catalog" && c.component.typeName == "Component"
    && c.componentPost.typeName == "ComponentPost" && c.category.typeName == "Category"
    && c.application.typeName == "Application" && c.manufacturer.typeName == "Manufacturer"
    && c.document.typeName == "Document" && c.documentPost.typeName == "DocumentPost"
    && c.variation.typeName == "Variation" && c.webLink.typeName == "WebLink"
  }

  /** The header the list and catalog reads send to get full representations. */
  const PreferHeader: Header := ("Prefer", "return=representation")

  /** How a C# interpolation prints a string that may be null. */
  function Interp(s: Option<string>): (t: string)
    ensures s.Some? ==> t == s.value
    ensures s.None? ==> t == ""
  {
    s.GetOr("")
  }

  // ---------------------------------------------------------------------------
  // Expected statuses: every operation accepts exactly one status.
  // ---------------------------------------------------------------------------

  /** The outcome of a list read once its status is checked (a 200 list read always
      holds instances). */
  function ListOutcome<T>(res: Result<ListResponse<T>, Failure>): (r: Result<seq<Option<T>>, Failure>)
  {
    match res
    case Failure(f) => Failure(f)
    case Success(m) =>
      if m.status != OK then Failure(StatusRejected(m.status, m.errorDetails))
      else if m.instances.None? then Failure(StatusRejected(m.status, m.errorDetails))
      else Success(m.instances.value)
  }

  /** The outcome of a single read once its status is checked. */
  function SingleOutcome<T>(res: Result<SingleResponse<T>, Failure>): (r: Result<Option<T>, Failure>) {
    match res
    case Failure(f) => Failure(f)
    case Success(m) => if m.status != OK then Failure(StatusRejected(m.status, m.errorDetails)) else Success(m.instance)
  }

  /** The outcome of a creation once its status is checked. */
  function CreateOutcome<T>(res: Result<PostResponse<T>, Failure>): (r: Result<Option<T>, Failure>) {
    match res
    case Failure(f) => Failure(f)
    case Success(m) => if m.status != Created then Failure(StatusRejected(m.status, m.errorDetails)) else Success(m.newInstance)
  }

  /** The outcome of an update once its status is checked. */
  function UpdateOutcome<T>(res: Result<UpdateResponse<T>, Failure>): (r: Result<Option<T>, Failure>) {
    match res
    case Failure(f) => Failure(f)
    case Success(m) => if m.status != OK then Failure(StatusRejected(m.status, m.errorDetails)) else Success(m.updatedInstance)
  }

  /** A list read: only 200 is accepted, and then the instances are returned. */
  function ListCall<T>(reply: Option<Reply>, lib: JsonLib, key: string, dec: Decoder<T>): (r: Result<seq<Option<T>>, Failure>)
    ensures var res := GetResult(reply, lib, key, dec);
      && (r.Success? <==> res.Success? && res.value.status == OK)
      && (res.Failure? ==> r == Failure(res.error))
      && (res.Success? && res.value.status != OK ==> r == Failure(StatusRejected(res.value.status, res.value.errorDetails)))
      && (r.Success? ==> res.value.instances == Some(r.value))
  {
    ListOutcome(GetResult(reply, lib, key, dec))
  }

  /** A single read: only 200 is accepted, and then the instance is returned. */
  function SingleCall<T>(reply: Option<Reply>, lib: JsonLib, key: string, dec: Decoder<T>): (r: Result<Option<T>, Failure>)
    ensures var res := SingleResult(reply, lib, key, dec);
      && (r.Success? <==> res.Success? && res.value.status == OK)
      && (res.Failure? ==> r == Failure(res.error))
      && (res.Success? && res.value.status != OK ==> r == Failure(StatusRejected(res.value.status, res.value.errorDetails)))
      && (r.Success? ==> r.value == res.value.instance)
  {
    SingleOutcome(SingleResult(reply, lib, key, dec))
  }

  /** A creation through the single-type POST: only 201 is accepted. */
  function CreateCall<T>(reply: Option<Reply>, lib: JsonLib, key: string, dec: Decoder<T>, model: T): (r: Result<Option<T>, Failure>)
    ensures var res := PostResult(reply, lib, key, dec, model);
      && (r.Success? <==> res.Success? && res.value.status == Created)
      && (res.Failure? ==> r == Failure(res.error))
      && (res.Success? && res.value.status != Created ==> r == Failure(StatusRejected(res.value.status, res.value.errorDetails)))
      && (r.Success? ==> r.value == res.value.newInstance)
    ensures reply.Some? && reply.value.status == Created && reply.value.content == "" ==> r == Success(Some(model))
  {
    CreateOutcome(PostResult(reply, lib, key, dec, model))
  }

  /** A creation through the two-type POST: only 201 is accepted, although the call
      itself also decodes 202 replies. */
  function CreateCallAs<T>(reply: Option<Reply>, lib: JsonLib, key: string, dec: Decoder<T>): (r: Result<Option<T>, Failure>)
    ensures var res := PostAsResult(reply, lib, key, dec);
      && (r.Success? <==> res.Success? && res.value.status == Created)
      && (res.Failure? ==> r == Failure(res.error))
      && (res.Success? && res.value.status != Created ==> r == Failure(StatusRejected(res.value.status, res.value.errorDetails)))
      && (r.Success? ==> r.value == res.value.newInstance)
    ensures reply.Some? && reply.value.status == Created && reply.value.content == "" ==> r == Success(None)
  {
    CreateOutcome(PostAsResult(reply, lib, key, dec))
  }

  /** An update through the single-type PUT: only 200 is accepted. */
  function UpdateCall<T>(reply: Option<Reply>, lib: JsonLib, key: string, dec: Decoder<T>): (r: Result<Option<T>, Failure>)
    ensures var res := PutResult(reply, lib, key, dec);
      && (r.Success? <==> res.Success? && res.value.status == OK)
      && (res.Failure? ==> r == Failure(res.error))
      && (res.Success? && res.value.status != OK ==> r == Failure(StatusRejected(res.value.status, res.value.errorDetails)))
      && (r.Success? ==> r.value == res.value.updatedInstance)
  {
    UpdateOutcome(PutResult(reply, lib, key, dec))
  }

  /** An update through the two-type PUT: only 200 is accepted. */
  function UpdateCallAs<T>(reply: Option<Reply>, lib: JsonLib, key: string, dec: Decoder<T>): (r: Result<Option<T>, Failure>)
    ensures var res := PutAsResult(reply, lib, key, dec);
      && (r.Success? <==> res.Success? && res.value.status == OK)
      && (res.Failure? ==> r == Failure(res.error))
      && (res.Success? && res.value.status != OK ==> r == Failure(StatusRejected(res.value.status, res.value.errorDetails)))
      && (r.Success? ==> r.value == res.value.updatedInstance)
  {
    UpdateOutcome(PutAsResult(reply, lib, key, dec))
  }

  /** A deletion: only 204 is accepted. */
  function DeleteCall(reply: Option<Reply>, lib: JsonLib): (r: Result<(), Failure>)
    ensures r.Success? <==> reply.Some? && reply.value.status == NoContent
    ensures var res := DeleteResult(reply, lib);
      && (res.Failure? ==> r == Failure(res.error))
      && (res.Success? && res.value.status != NoContent ==> r == Failure(StatusRejected(res.value.status, res.value.errorDetails)))
  {
    var res :- DeleteResult(reply, lib);
    if res.status != NoContent then Failure(StatusRejected(res.status, res.errorDetails)) else Success(())
  }

  // ---------------------------------------------------------------------------
  // Query strings.
  // ---------------------------------------------------------------------------

  /** `char.IsWhiteSpace`: the Unicode space separators, line and paragraph
      separators, and the control characters U+0009 to U+000D and U+0085. */
  predicate IsWhiteSpace(c: char) {
    ('\U{9}' <= c <= '\U{D}') || c == ' ' || c == '\U{85}' || c == '\U{A0}' || c == '\U{1680}'
    || ('\U{2000}' <= c <= '\U{200A}') || c == '\U{2028}' || c == '\U{2029}' || c == '\U{202F}'
    || c == '\U{205F}' || c == '\U{3000}'
  }

  /** `string.IsNullOrWhiteSpace`. */
  predicate Blank(s: Option<string>) {
    s.None? || forall i :: 0 <= i < |s.value| ==> IsWhiteSpace(s.value[i])
  }

  /** The query of a component list read: the search wins over the catalog filter. */
  function ComponentsQuery(catalogs: Option<string>, search: Option<string>): (q: string)
    ensures Blank(catalogs) && Blank(search) ==> q == ""
    ensures !Blank(search) ==> q == "?$search=" + search.value
    ensures Blank(search) && !Blank(catalogs) ==> q == "?catalogs=" + catalogs.value
  {
    if !Blank(search) then "?$search=" + search.value
    else if !Blank(catalogs) then "?catalogs=" + catalogs.value
    else ""
  }

  /** The query of a catalog list read. */
  function CatalogsQuery(search: Option<string>): (q: string)
    ensures q != "" <==> !Blank(search)
    ensures !Blank(search) ==> q == "?$search=" + search.value
  {
    if !Blank(search) then "?$search=" + search.value else ""
  }

  /** A non-blank search discards the catalog filter altogether. */
  lemma SearchDiscardsCatalogs(c1: Option<string>, c2: Option<string>, search: Option<string>)
    requires !Blank(search)
    ensures ComponentsQuery(c1, search) == ComponentsQuery(c2, search) == CatalogsQuery(search)
  {
  }

  /** An empty or all-white-space argument acts as a null one: it adds no query. */
  lemma BlankArgumentsAddNoQuery(catalogs: Option<string>, search: Option<string>, s: string)
    requires forall i :: 0 <= i < |s| ==> IsWhiteSpace(s[i])
    ensures ComponentsQuery(catalogs, Some(s)) == ComponentsQuery(catalogs, None)
    ensures ComponentsQuery(Some(s), search) == ComponentsQuery(None, search)
    ensures CatalogsQuery(Some(s)) == CatalogsQuery(None) == ""
  {
  }

  // ---------------------------------------------------------------------------
  // Disposal.
  // ---------------------------------------------------------------------------

  /** The path of each deletion a cleanup list asks for, in list order; None for a
      null entry, whose id cannot be read. */
  function CleanupPaths<T>(collection: string, entries: seq<Option<T>>, id: T -> Option<string>): (r: seq<Option<string>>)
    ensures |r| == |entries|
    ensures forall i :: 0 <= i < |entries| ==>
              r[i] == if entries[i].None? then None else Some("/library/" + collection + "/" + Interp(id(entries[i].value)))
  {
    seq(|entries|, i requires 0 <= i < |entries| =>
      if entries[i].None? then None else Some("/library/" + collection + "/" + Interp(id(entries[i].value))))
  }

  /** The outcome of a run of deletions: the paths deleted (or attempted), the replies
      left over and whether every deletion succeeded. */
  datatype Run = Run(issued: seq<string>, rest: seq<Reply>, outcome: Result<(), Failure>)

  /** Deleting the planned paths in order against the scripted replies; the first
      null entry or rejected deletion ends the run. */
  function DeleteRun(plan: seq<Option<string>>, replies: seq<Reply>, lib: JsonLib): (r: Run)
    ensures |r.issued| <= |plan|
    ensures r.outcome.Success? ==> |r.issued| == |plan|
    decreases |plan|
  {
    if plan == [] then Run([], replies, Success(()))
    else match plan[0]
      case None => Run([], replies, Failure(NullReference("cleanup entry")))
      case Some(path) =>
        match DeleteCall(Head(replies), lib)
        case Failure(f) => Run([path], Tail(replies), Failure(f))
        case Success(_) =>
          var after := DeleteRun(plan[1..], Tail(replies), lib);
          Run([path] + after.issued, after.rest, after.outcome)
  }

  /** A run deletes a prefix of the plan: the i-th path issued is the i-th planned. */
  lemma {:induction false} DeleteRunFollowsPlan(plan: seq<Option<string>>, replies: seq<Reply>, lib: JsonLib)
    ensures var r := DeleteRun(plan, replies, lib);
      forall i :: 0 <= i < |r.issued| ==> plan[i] == Some(r.issued[i])
    decreases |plan|
  {
    if plan != [] && plan[0].Some? && DeleteCall(Head(replies), lib).Success? {
      DeleteRunFollowsPlan(plan[1..], Tail(replies), lib);
    }
  }

  /** A run over two plans is the run over the first followed, if that succeeded, by
      the run over the second on the replies left. */
  lemma {:induction false} DeleteRunAppend(a: seq<Option<string>>, b: seq<Option<string>>, replies: seq<Reply>, lib: JsonLib)
    ensures var ra := DeleteRun(a, replies, lib);
      DeleteRun(a + b, replies, lib) ==
        if ra.outcome.Failure? then ra
        else var rb := DeleteRun(b, ra.rest, lib); Run(ra.issued + rb.issued, rb.rest, rb.outcome)
    decreases |a|
  {
    if a == [] {
      assert a + b == b;
    } else {
      assert (a + b)[0] == a[0] && (a + b)[1..] == a[1..] + b;
      match a[0]
      case None =>
      case Some(path) =>
        match DeleteCall(Head(replies), lib)
        case Failure(_) =>
        case Success(_) =>
          DeleteRunAppend(a[1..], b, Tail(replies), lib);
          var rest := DeleteRun(a[1..], Tail(replies), lib);
          if rest.outcome.Success? {
            var rb := DeleteRun(b, rest.rest, lib);
            assert [path] + (rest.issued + rb.issued) == ([path] + rest.issued) + rb.issued;
          }
    }
  }

  /** When no entry is null and the service accepts every deletion, each planned path is
      deleted exactly once, in plan order. */
  lemma {:induction false} DeleteRunAllAccepted(plan: seq<Option<string>>, replies: seq<Reply>, lib: JsonLib)
    requires None !in plan && |replies| >= |plan|
    requires forall i :: 0 <= i < |plan| ==> replies[i].status == NoContent
    ensures DeleteRun(plan, replies, lib).outcome.Success?
    ensures |DeleteRun(plan, replies, lib).issued| == |plan|
    ensures DeleteRun(plan, replies, lib).rest == replies[|plan|..]
    decreases |plan|
  {
    if plan != [] {
      assert plan[0] != None by { assert plan[0] in plan; }
      assert None !in plan[1..] by {
        forall i | 0 <= i < |plan[1..]| ensures plan[1..][i] != None {
          assert plan[1..][i] == plan[i + 1];
          assert plan[i + 1] in plan;
        }
      }
      DeleteRunAllAccepted(plan[1..], replies[1..], lib);
      assert replies[1..][|plan| - 1..] == replies[|plan|..];
    }
  }

  /** A run whose first `issued` deletions are done and whose remainder is `rest`. */
  predicate Continues(whole: Run, issued: seq<string>, rest: Run) {
    whole.issued == issued + rest.issued && whole.rest == rest.rest && whole.outcome == rest.outcome
  }

  lemma ContinuesShift(whole: Run, issued: seq<string>, path: string, rest: Run)
    requires Continues(whole, issued, Run([path] + rest.issued, rest.rest, rest.outcome))
    ensures Continues(whole, issued + [path], rest)
  {
    assert issued + ([path] + rest.issued) == (issued + [path]) + rest.issued;
  }

  /** One step of a run. */
  lemma DeleteRunStep(plan: seq<Option<string>>, replies: seq<Reply>, lib: JsonLib)
    requires plan != []
    ensures plan[0].None? ==> DeleteRun(plan, replies, lib) == Run([], replies, Failure(NullReference("cleanup entry")))
    ensures plan[0].Some? && DeleteCall(Head(replies), lib).Failure? ==>
      DeleteRun(plan, replies, lib) == Run([plan[0].value], Tail(replies), Failure(DeleteCall(Head(replies), lib).error))
    ensures plan[0].Some? && DeleteCall(Head(replies), lib).Success? ==>
      var after := DeleteRun(plan[1..], Tail(replies), lib);
      DeleteRun(plan, replies, lib) == Run([plan[0].value] + after.issued, after.rest, after.outcome)
  {
  }

  /** The DELETE requests of a run of paths. */
  function DeleteRequests(paths: seq<string>, headers: seq<Header>): (r: seq<Request>)
    ensures |r| == |paths|
    ensures forall i :: 0 <= i < |paths| ==> r[i] == Request(Delete, ApiBaseUrl + paths[i], headers, None)
    decreases |paths|
  {
    if paths == [] then [] else [Request(Delete, ApiBaseUrl + paths[0], headers, None)] + DeleteRequests(paths[1..], headers)
  }

  lemma {:induction false} DeleteRequestsAppend(a: seq<string>, b: seq<string>, headers: seq<Header>)
    ensures DeleteRequests(a + b, headers) == DeleteRequests(a, headers) + DeleteRequests(b, headers)
    decreases |a|
  {
    if a == [] {
      assert a + b == b;
    } else {
      assert (a + b)[0] == a[0] && (a + b)[1..] == a[1..] + b;
      DeleteRequestsAppend(a[1..], b, headers);
    }
  }

  /** One more DELETE extends the log of a run by one path. */
  lemma SentGrows(sent0: seq<Request>, issued: seq<string>, path: string, headers: seq<Header>)
    ensures sent0 + DeleteRequests(issued, headers) + [Request(Delete, ApiBaseUrl + path, headers, None)]
         == sent0 + DeleteRequests(issued + [path], headers)
  {
    DeleteRequestsAppend(issued, [path], headers);
    assert DeleteRequests([path], headers) == [Request(Delete, ApiBaseUrl + path, headers, None)];
  }

  /** The client went from log `sent0` and script `script` to `sent` and `pending` by
      deleting the planned paths with headers `headers`, ending in `outcome`. */
  ghost predicate Ran(plan: seq<Option<string>>, script: seq<Reply>, lib: JsonLib, sent0: seq<Request>, headers: seq<Header>,
                      outcome: Result<(), Failure>, sent: seq<Request>, pending: seq<Reply>)
  {
    var run := DeleteRun(plan, script, lib);
    outcome == run.outcome && pending == run.rest && sent == sent0 + DeleteRequests(run.issued, headers)
  }

  /** A successful run followed by another is a run of the concatenated plans. */
  lemma RanChains(a: seq<Option<string>>, b: seq<Option<string>>, script: seq<Reply>, lib: JsonLib, sent0: seq<Request>,
                  headers: seq<Header>, outcomeA: Result<(), Failure>, sentA: seq<Request>, pendingA: seq<Reply>,
                  outcome: Result<(), Failure>, sent: seq<Request>, pending: seq<Reply>)
    requires Ran(a, script, lib, sent0, headers, outcomeA, sentA, pendingA) && outcomeA.Success?
    requires Ran(b, pendingA, lib, sentA, headers, outcome, sent, pending)
    ensures Ran(a + b, script, lib, sent0, headers, outcome, sent, pending)
  {
    var ra, rb := DeleteRun(a, script, lib), DeleteRun(b, pendingA, lib);
    DeleteRunAppend(a, b, script, lib);
    SentChains(sent0, sentA, sent, ra.issued, rb.issued, headers);
  }

  lemma SentChains(sent0: seq<Request>, sentA: seq<Request>, sent: seq<Request>, x: seq<string>, y: seq<string>, headers: seq<Header>)
    requires sentA == sent0 + DeleteRequests(x, headers) && sent == sentA + DeleteRequests(y, headers)
    ensures sent == sent0 + DeleteRequests(x + y, headers)
  {
    DeleteRequestsAppend(x, y, headers);
  }

  /** A failed run is also the run of any longer plan it begins. */
  lemma RanStops(a: seq<Option<string>>, b: seq<Option<string>>, script: seq<Reply>, lib: JsonLib, sent0: seq<Request>,
                 headers: seq<Header>, outcome: Result<(), Failure>, sent: seq<Request>, pending: seq<Reply>)
    requires Ran(a, script, lib, sent0, headers, outcome, sent, pending) && (outcome.Failure? || b == [])
    ensures Ran(a + b, script, lib, sent0, headers, outcome, sent, pending)
  {
    if b == [] {
      assert a + b == a;
    } else {
      DeleteRunAppend(a, b, script, lib);
    }
  }

  /** Whichever list disposal stopped at, what was deleted and what was left make up the
      whole plan. */
  lemma DisposalDone(done: seq<Option<string>>, todo: seq<Option<string>>, p1: seq<Option<string>>, p2: seq<Option<string>>,
                     p3: seq<Option<string>>, p4: seq<Option<string>>, p5: seq<Option<string>>)
    requires (done == [] + p1 && todo == p2 + p3 + p4 + p5)
          || (done == [] + p1 + p2 && todo == p3 + p4 + p5)
          || (done == [] + p1 + p2 + p3 && todo == p4 + p5)
          || (done == [] + p1 + p2 + p3 + p4 && todo == p5)
          || (done == [] + p1 + p2 + p3 + p4 + p5 && todo == [])
    ensures done + todo == p1 + p2 + p3 + p4 + p5
  {
    assert [] + p1 == p1;
  }

  class LibraryManager {
    const endpointMgr: EndpointManager
    const codecs: Codecs
    var catalogs: seq<Option<Catalog>>
    var components: seq<Option<Component>>
    var categories: seq<Option<Category>>
    var applications: seq<Option<Application>>
    var manufacturers: seq<Option<Manufacturer>>

    /** The codecs name their classes and the endpoint manager holds the alias table. */
    predicate Valid() {
      Named(codecs) && endpointMgr.containerMap == Aliases
    }

    /** The deletions disposal performs: components, then catalogs, categories,
        applications and manufacturers, each list in the order it was filled. */
    function DisposalPlan(): (plan: seq<Option<string>>)
      reads this
      ensures |plan| == |components| + |catalogs| + |categories| + |applications| + |manufacturers|
    {
      CleanupPaths("components", components, (c: Component) => c.id)
      + CleanupPaths("catalogs", catalogs, (c: Catalog) => c.id)
      + CleanupPaths("categories", categories, (c: Category) => c.id)
      + CleanupPaths("applications", applications, (a: Application) => a.id)
      + CleanupPaths("manufacturers", manufacturers, (m: Manufacturer) => m.id)
    }

    constructor (token: string, client: HttpClient, codecs: Codecs)
      requires Named(codecs)
      modifies client
      ensures Valid() && endpointMgr.client == client && this.codecs == codecs
      ensures catalogs == [] && components == [] && categories == [] && applications == [] && manufacturers == []
      ensures client.defaultHeaders == [("Accept", AcceptHeader), ("Authorization", token)]
      ensures client.sent == old(client.sent) && client.pending == old(client.pending)
    {
      endpointMgr := new EndpointManager(token, client);
      this.codecs := codecs;
      catalogs, components, categories, applications, manufacturers := [], [], [], [], [];
    }

    // ----- GET -----

    /** `GET /library/components` with the catalog or search query. */
    method GetComponents(catalogFilter: Option<string>, search: Option<string>) returns (r: Result<seq<Option<Component>>, Failure>)
      requires Valid()
      modifies endpointMgr.client
      ensures endpointMgr.client.defaultHeaders == old(endpointMgr.client.defaultHeaders) + [PreferHeader]
      ensures endpointMgr.client.sent == old(endpointMgr.client.sent)
        + [Request(Get, ApiBaseUrl + ("/library/components" + ComponentsQuery(catalogFilter, search)), endpointMgr.client.defaultHeaders, None)]
      ensures endpointMgr.client.pending == Tail(old(endpointMgr.client.pending))
      ensures r == ListCall(Head(old(endpointMgr.client.pending)), codecs.lib, ContainerKey(Aliases, "Component", true), codecs.component.decode)
    {
      var queryString := "";
      if !Blank(catalogFilter) {
        queryString := "?catalogs=" + catalogFilter.value;
      }
      if !Blank(search) {
        queryString := "?$search=" + search.value;
      }
      var res := endpointMgr.MakeGetCall("/library/components" + queryString, Some([PreferHeader]), codecs.lib, codecs.component);
      r := ListOutcome(res);
    }

    /** `GET /library/catalogs` with the search query. */
    method GetCatalogs(search: Option<string>) returns (r: Result<seq<Option<Catalog>>, Failure>)
      requires Valid()
      modifies endpointMgr.client
      ensures endpointMgr.client.defaultHeaders == old(endpointMgr.client.defaultHeaders) + [PreferHeader]
      ensures endpointMgr.client.sent == old(endpointMgr.client.sent)
        + [Request(Get, ApiBaseUrl + ("/library/catalogs" + CatalogsQuery(search)), endpointMgr.client.defaultHeaders, None)]
      ensures endpointMgr.client.pending == Tail(old(endpointMgr.client.pending))
      ensures r == ListCall(Head(old(endpointMgr.client.pending)), codecs.lib, ContainerKey(Aliases, "Catalog", true), codecs.catalog.decode)
    {
      var queryString := "";
      if !Blank(search) {
        queryString := "?$search=" + search.value;
      }
      var res := endpointMgr.MakeGetCall("/library/catalogs" + queryString, Some([PreferHeader]), codecs.lib, codecs.catalog);
      r := ListOutcome(res);
    }

    /** `GET /library/catalogs/{id}`. */
    method GetCatalog(id: string) returns (r: Result<Option<Catalog>, Failure>)
      requires Valid()
      modifies endpointMgr.client
      ensures endpointMgr.client.defaultHeaders == old(endpointMgr.client.defaultHeaders) + [PreferHeader]
      ensures endpointMgr.client.sent == old(endpointMgr.client.sent)
        + [Request(Get, ApiBaseUrl + ("/library/catalogs/" + id), endpointMgr.client.defaultHeaders, None)]
      ensures endpointMgr.client.pending == Tail(old(endpointMgr.client.pending))
      ensures r == SingleCall(Head(old(endpointMgr.client.pending)), codecs.lib, ContainerKey(Aliases, "Catalog", false), codecs.catalog.decode)
    {
      var res := endpointMgr.MakeGetSingleCall("/library/catalogs/" + id, Some([PreferHeader]), codecs.lib, codecs.catalog);
      r := SingleOutcome(res);
    }

    /** GET of a component at the absolute URL a job reported. */
    method GetComponent(url: string) returns (r: Result<Option<Component>, Failure>)
      requires Valid()
      modifies endpointMgr.client
      ensures endpointMgr.client.defaultHeaders == old(endpointMgr.client.defaultHeaders)
      ensures endpointMgr.client.sent == old(endpointMgr.client.sent) + [Request(Get, url, endpointMgr.client.defaultHeaders, None)]
      ensures endpointMgr.client.pending == Tail(old(endpointMgr.client.pending))
      ensures r == SingleCall(Head(old(endpointMgr.client.pending)), codecs.lib, ContainerKey(Aliases, "Component", false), codecs.component.decode)
    {
      var res := endpointMgr.MakeGetSingleCallAt(url, codecs.lib, codecs.component);
      r := SingleOutcome(res);
    }

    /** `GET /library/components/{id}/documents`. */
    method GetComponentDocuments(componentId: string) returns (r: Result<seq<Option<Document>>, Failure>)
      requires Valid()
      modifies endpointMgr.client
      ensures endpointMgr.client.defaultHeaders == old(endpointMgr.client.defaultHeaders)
      ensures endpointMgr.client.sent == old(endpointMgr.client.sent)
        + [Request(Get, ApiBaseUrl + ("/library/components/" + componentId + "/documents"), endpointMgr.client.defaultHeaders, None)]
      ensures endpointMgr.client.pending == Tail(old(endpointMgr.client.pending))
      ensures r == ListCall(Head(old(endpointMgr.client.pending)), codecs.lib, ContainerKey(Aliases, "Document", true), codecs.document.decode)
    {
      var res := endpointMgr.MakeGetCall("/library/components/" + componentId + "/documents", None, codecs.lib, codecs.document);
      r := ListOutcome(res);
    }

    /** `GET /library/components/{id}/variations`. */
    method GetComponentVariations(componentId: string) returns (r: Result<seq<Option<Variation>>, Failure>)
      requires Valid()
      modifies endpointMgr.client
      ensures endpointMgr.client.defaultHeaders == old(endpointMgr.client.defaultHeaders)
      ensures endpointMgr.client.sent == old(endpointMgr.client.sent)
        + [Request(Get, ApiBaseUrl + ("/library/components/" + componentId + "/variations"), endpointMgr.client.defaultHeaders, None)]
      ensures endpointMgr.client.pending == Tail(old(endpointMgr.client.pending))
      ensures r == ListCall(Head(old(endpointMgr.client.pending)), codecs.lib, ContainerKey(Aliases, "Variation", true), codecs.variation.decode)
    {
      var res := endpointMgr.MakeGetCall("/library/components/" + componentId + "/variations", None, codecs.lib, codecs.variation);
      r := ListOutcome(res);
    }

    /** `GET /library/components/{id}/weblinks`; the list is read from `webLinks`. */
    method GetComponentWebLinks(componentId: string) returns (r: Result<seq<Option<WebLink>>, Failure>)
      requires Valid()
      modifies endpointMgr.client
      ensures endpointMgr.client.defaultHeaders == old(endpointMgr.client.defaultHeaders)
      ensures endpointMgr.client.sent == old(endpointMgr.client.sent)
        + [Request(Get, ApiBaseUrl + ("/library/components/" + componentId + "/weblinks"), endpointMgr.client.defaultHeaders, None)]
      ensures endpointMgr.client.pending == Tail(old(endpointMgr.client.pending))
      ensures r == ListCall(Head(old(endpointMgr.client.pending)), codecs.lib, "webLinks", codecs.webLink.decode)
    {
      WebLinkKeys();
      var res := endpointMgr.MakeGetCall("/library/components/" + componentId + "/weblinks", None, codecs.lib, codecs.webLink);
      r := ListOutcome(res);
    }

    // ----- POST -----

    /** `POST /library/catalogs` of the given catalog or a fresh default one; on success
        the new instance is remembered for cleanup when asked. */
    method CreateCatalog(catalog: Option<Catalog>, cleanupLater: bool, g: Guids) returns (r: Result<Option<Catalog>, Failure>)
      requires Valid()
      modifies this, endpointMgr.client
      ensures var model := if catalog.Some? then catalog.value else NewCatalog(g);
        && endpointMgr.client.sent == old(endpointMgr.client.sent)
             + [Request(Post, ApiBaseUrl + "/library/catalogs", endpointMgr.client.defaultHeaders, Some(codecs.catalog.encode(model)))]
        && r == CreateCall(Head(old(endpointMgr.client.pending)), codecs.lib, ContainerKey(Aliases, "Catalog", false), codecs.catalog.decode, model)
      ensures endpointMgr.client.defaultHeaders == old(endpointMgr.client.defaultHeaders)
      ensures endpointMgr.client.pending == Tail(old(endpointMgr.client.pending))
      ensures catalogs == old(catalogs) + (if r.Success? && cleanupLater then [r.value] else [])
      ensures components == old(components) && categories == old(categories)
      ensures applications == old(applications) && manufacturers == old(manufacturers)
    {
      var model := if catalog.Some? then catalog.value else NewCatalog(g);
      var res := endpointMgr.MakePostCall("/library/catalogs", model, None, codecs.lib, codecs.catalog);
      r := CreateOutcome(res);
      if r.Success? && cleanupLater {
        catalogs := catalogs + [r.value];
      }
    }

    /** `POST /library/components` of the given body or a fresh default one, read back
        as a component; on success it is remembered for cleanup when asked. */
    method CreateComponent(component: Option<ComponentPost>, cleanupLater: bool, g: Guids) returns (r: Result<Option<Component>, Failure>)
      requires Valid()
      modifies this, endpointMgr.client
      ensures var model := if component.Some? then component.value else NewComponentPost(g);
        && endpointMgr.client.sent == old(endpointMgr.client.sent)
             + [Request(Post, ApiBaseUrl + "/library/components", endpointMgr.client.defaultHeaders, Some(codecs.componentPost.encode(model)))]
        && r == CreateCallAs(Head(old(endpointMgr.client.pending)), codecs.lib, ContainerKey(Aliases, "Component", false), codecs.component.decode)
      ensures endpointMgr.client.defaultHeaders == old(endpointMgr.client.defaultHeaders)
      ensures endpointMgr.client.pending == Tail(old(endpointMgr.client.pending))
      ensures components == old(components) + (if r.Success? && cleanupLater then [r.value] else [])
      ensures catalogs == old(catalogs) && categories == old(categories)
      ensures applications == old(applications) && manufacturers == old(manufacturers)
    {
      var model := if component.Some? then component.value else NewComponentPost(g);
      var res := endpointMgr.MakePostCallAs("/library/components", model, None, codecs.lib, codecs.componentPost, codecs.component);
      r := CreateOutcome(res);
      if r.Success? && cleanupLater {
        components := components + [r.value];
      }
    }

    /** `POST /library/categories`. */
    method CreateCategory(category: Option<Category>, cleanupLater: bool, g: Guids) returns (r: Result<Option<Category>, Failure>)
      requires Valid()
      modifies this, endpointMgr.client
      ensures var model := if category.Some? then category.value else NewCategory(g);
        && endpointMgr.client.sent == old(endpointMgr.client.sent)
             + [Request(Post, ApiBaseUrl + "/library/categories", endpointMgr.client.defaultHeaders, Some(codecs.category.encode(model)))]
        && r == CreateCall(Head(old(endpointMgr.client.pending)), codecs.lib, ContainerKey(Aliases, "Category", false), codecs.category.decode, model)
      ensures endpointMgr.client.defaultHeaders == old(endpointMgr.client.defaultHeaders)
      ensures endpointMgr.client.pending == Tail(old(endpointMgr.client.pending))
      ensures categories == old(categories) + (if r.Success? && cleanupLater then [r.value] else [])
      ensures catalogs == old(catalogs) && components == old(components)
      ensures applications == old(applications) && manufacturers == old(manufacturers)
    {
      var model := if category.Some? then category.value else NewCategory(g);
      var res := endpointMgr.MakePostCall("/library/categories", model, None, codecs.lib, codecs.category);
      r := CreateOutcome(res);
      if r.Success? && cleanupLater {
        categories := categories + [r.value];
      }
    }

    /** `POST /library/applications`. */
    method CreateApplication(application: Option<Application>, cleanupLater: bool, g: Guids) returns (r: Result<Option<Application>, Failure>)
      requires Valid()
      modifies this, endpointMgr.client
      ensures var model := if application.Some? then application.value else NewApplication(g);
        && endpointMgr.client.sent == old(endpointMgr.client.sent)
             + [Request(Post, ApiBaseUrl + "/library/applications", endpointMgr.client.defaultHeaders, Some(codecs.application.encode(model)))]
        && r == CreateCall(Head(old(endpointMgr.client.pending)), codecs.lib, ContainerKey(Aliases, "Application", false), codecs.application.decode, model)
      ensures endpointMgr.client.defaultHeaders == old(endpointMgr.client.defaultHeaders)
      ensures endpointMgr.client.pending == Tail(old(endpointMgr.client.pending))
      ensures applications == old(applications) + (if r.Success? && cleanupLater then [r.value] else [])
      ensures catalogs == old(catalogs) && components == old(components)
      ensures categories == old(categories) && manufacturers == old(manufacturers)
    {
      var model := if application.Some? then application.value else NewApplication(g);
      var res := endpointMgr.MakePostCall("/library/applications", model, None, codecs.lib, codecs.application);
      r := CreateOutcome(res);
      if r.Success? && cleanupLater {
        applications := applications + [r.value];
      }
    }

    /** `POST /library/manufacturers`. */
    method CreateManufacturer(manufacturer: Option<Manufacturer>, cleanupLater: bool, g: Guids) returns (r: Result<Option<Manufacturer>, Failure>)
      requires Valid()
      modifies this, endpointMgr.client
      ensures var model := if manufacturer.Some? then manufacturer.value else NewManufacturer(g);
        && endpointMgr.client.sent == old(endpointMgr.client.sent)
             + [Request(Post, ApiBaseUrl + "/library/manufacturers", endpointMgr.client.defaultHeaders, Some(codecs.manufacturer.encode(model)))]
        && r == CreateCall(Head(old(endpointMgr.client.pending)), codecs.lib, ContainerKey(Aliases, "Manufacturer", false), codecs.manufacturer.decode, model)
      ensures endpointMgr.client.defaultHeaders == old(endpointMgr.client.defaultHeaders)
      ensures endpointMgr.client.pending == Tail(old(endpointMgr.client.pending))
      ensures manufacturers == old(manufacturers) + (if r.Success? && cleanupLater then [r.value] else [])
      ensures catalogs == old(catalogs) && components == old(components)
      ensures categories == old(categories) && applications == old(applications)
    {
      var model := if manufacturer.Some? then manufacturer.value else NewManufacturer(g);
      var res := endpointMgr.MakePostCall("/library/manufacturers", model, None, codecs.lib, codecs.manufacturer);
      r := CreateOutcome(res);
      if r.Success? && cleanupLater {
        manufacturers := manufacturers + [r.value];
      }
    }

    /** `POST /library/components/{id}/documents`, read back as a document; never
        tracked for cleanup. */
    method CreateComponentDocument(document: DocumentPost, componentId: string) returns (r: Result<Option<Document>, Failure>)
      requires Valid()
      modifies endpointMgr.client
      ensures endpointMgr.client.sent == old(endpointMgr.client.sent)
        + [Request(Post, ApiBaseUrl + ("/library/components/" + componentId + "/documents"),
                   endpointMgr.client.defaultHeaders, Some(codecs.documentPost.encode(document)))]
      ensures endpointMgr.client.defaultHeaders == old(endpointMgr.client.defaultHeaders)
      ensures endpointMgr.client.pending == Tail(old(endpointMgr.client.pending))
      ensures r == CreateCallAs(Head(old(endpointMgr.client.pending)), codecs.lib, ContainerKey(Aliases, "Document", false), codecs.document.decode)
    {
      var res := endpointMgr.MakePostCallAs("/library/components/" + componentId + "/documents", document, None,
        codecs.lib, codecs.documentPost, codecs.document);
      r := CreateOutcome(res);
    }

    /** `POST /library/components/{id}/variations`; never tracked for cleanup. */
    method CreateComponentVariation(variation: Variation, componentId: string) returns (r: Result<Option<Variation>, Failure>)
      requires Valid()
      modifies endpointMgr.client
      ensures endpointMgr.client.sent == old(endpointMgr.client.sent)
        + [Request(Post, ApiBaseUrl + ("/library/components/" + componentId + "/variations"),
                   endpointMgr.client.defaultHeaders, Some(codecs.variation.encode(variation)))]
      ensures endpointMgr.client.defaultHeaders == old(endpointMgr.client.defaultHeaders)
      ensures endpointMgr.client.pending == Tail(old(endpointMgr.client.pending))
      ensures r == CreateCall(Head(old(endpointMgr.client.pending)), codecs.lib, ContainerKey(Aliases, "Variation", false), codecs.variation.decode, variation)
    {
      var res := endpointMgr.MakePostCall("/library/components/" + componentId + "/variations", variation, None, codecs.lib, codecs.variation);
      r := CreateOutcome(res);
    }

    /** `POST /library/components/{id}/weblinks`, read back from `webLink`; never
        tracked for cleanup. */
    method CreateComponentWebLink(webLink: WebLink, componentId: string) returns (r: Result<Option<WebLink>, Failure>)
      requires Valid()
      modifies endpointMgr.client
      ensures endpointMgr.client.sent == old(endpointMgr.client.sent)
        + [Request(Post, ApiBaseUrl + ("/library/components/" + componentId + "/weblinks"),
                   endpointMgr.client.defaultHeaders, Some(codecs.webLink.encode(webLink)))]
      ensures endpointMgr.client.defaultHeaders == old(endpointMgr.client.defaultHeaders)
      ensures endpointMgr.client.pending == Tail(old(endpointMgr.client.pending))
      ensures r == CreateCall(Head(old(endpointMgr.client.pending)), codecs.lib, "webLink", codecs.webLink.decode, webLink)
    {
      WebLinkKeys();
      var res := endpointMgr.MakePostCall("/library/components/" + componentId + "/weblinks", webLink, None, codecs.lib, codecs.webLink);
      r := CreateOutcome(res);
    }

    // ----- PUT -----

    /** `PUT /library/catalogs/{id}`. */
    method UpdateCatalog(catalog: Catalog, id: string) returns (r: Result<(), Failure>)
      requires Valid()
      modifies endpointMgr.client
      ensures endpointMgr.client.sent == old(endpointMgr.client.sent)
        + [Request(Put, ApiBaseUrl + ("/library/catalogs/" + id), endpointMgr.client.defaultHeaders, Some(codecs.catalog.encode(catalog)))]
      ensures endpointMgr.client.defaultHeaders == old(endpointMgr.client.defaultHeaders)
      ensures endpointMgr.client.pending == Tail(old(endpointMgr.client.pending))
      ensures var u := UpdateCall(Head(old(endpointMgr.client.pending)), codecs.lib, ContainerKey(Aliases, "Catalog", false), codecs.catalog.decode);
        (r.Success? <==> u.Success?) && (u.Failure? ==> r == Failure(u.error))
    {
      var res := endpointMgr.MakePutCall("/library/catalogs/" + id, catalog, None, codecs.lib, codecs.catalog);
      var u := UpdateOutcome(res);
      r := if u.Success? then Success(()) else Failure(u.error);
    }

    /** `PUT /library/components/{id}` of a component body. */
    method UpdateComponent(component: ComponentPost, id: string) returns (r: Result<(), Failure>)
      requires Valid()
      modifies endpointMgr.client
      ensures endpointMgr.client.sent == old(endpointMgr.client.sent)
        + [Request(Put, ApiBaseUrl + ("/library/components/" + id), endpointMgr.client.defaultHeaders, Some(codecs.componentPost.encode(component)))]
      ensures endpointMgr.client.defaultHeaders == old(endpointMgr.client.defaultHeaders)
      ensures endpointMgr.client.pending == Tail(old(endpointMgr.client.pending))
      ensures var u := UpdateCallAs(Head(old(endpointMgr.client.pending)), codecs.lib, ContainerKey(Aliases, "Component", false), codecs.component.decode);
        (r.Success? <==> u.Success?) && (u.Failure? ==> r == Failure(u.error))
    {
      var res := endpointMgr.MakePutCallAs("/library/components/" + id, component, None, codecs.lib, codecs.componentPost, codecs.component);
      var u := UpdateOutcome(res);
      r := if u.Success? then Success(()) else Failure(u.error);
    }

    /** `PUT /library/components/{componentId}/documents/{id}`, returning the updated
        document. */
    method UpdateComponentDocument(document: DocumentPost, id: string, componentId: string) returns (r: Result<Option<Document>, Failure>)
      requires Valid()
      modifies endpointMgr.client
      ensures endpointMgr.client.sent == old(endpointMgr.client.sent)
        + [Request(Put, ApiBaseUrl + ("/library/components/" + componentId + "/documents/" + id),
                   endpointMgr.client.defaultHeaders, Some(codecs.documentPost.encode(document)))]
      ensures endpointMgr.client.defaultHeaders == old(endpointMgr.client.defaultHeaders)
      ensures endpointMgr.client.pending == Tail(old(endpointMgr.client.pending))
      ensures r == UpdateCallAs(Head(old(endpointMgr.client.pending)), codecs.lib, ContainerKey(Aliases, "Document", false), codecs.document.decode)
    {
      var res := endpointMgr.MakePutCallAs("/library/components/" + componentId + "/documents/" + id, document, None,
        codecs.lib, codecs.documentPost, codecs.document);
      r := UpdateOutcome(res);
    }

    // ----- DELETE -----

    /** DELETE of one resource; only 204 is accepted. */
    method DeleteResource(path: string) returns (r: Result<(), Failure>)
      modifies endpointMgr.client
      ensures endpointMgr.client.sent == old(endpointMgr.client.sent)
        + [Request(Delete, ApiBaseUrl + path, endpointMgr.client.defaultHeaders, None)]
      ensures endpointMgr.client.defaultHeaders == old(endpointMgr.client.defaultHeaders)
      ensures endpointMgr.client.pending == Tail(old(endpointMgr.client.pending))
      ensures r == DeleteCall(Head(old(endpointMgr.client.pending)), codecs.lib)
    {
      var res := endpointMgr.MakeDeleteCall(path, None, codecs.lib);
      if res.Failure? {
        return Failure(res.error);
      }
      if res.value.status != NoContent {
        return Failure(StatusRejected(res.value.status, res.value.errorDetails));
      }
      return Success(());
    }

    method DeleteCatalog(id: string) returns (r: Result<(), Failure>)
      modifies endpointMgr.client
      ensures endpointMgr.client.sent == old(endpointMgr.client.sent)
        + [Request(Delete, ApiBaseUrl + ("/library/catalogs/" + id), endpointMgr.client.defaultHeaders, None)]
      ensures endpointMgr.client.defaultHeaders == old(endpointMgr.client.defaultHeaders)
      ensures endpointMgr.client.pending == Tail(old(endpointMgr.client.pending))
      ensures r == DeleteCall(Head(old(endpointMgr.client.pending)), codecs.lib)
    {
      r := DeleteResource("/library/catalogs/" + id);
    }

    method DeleteComponent(id: string) returns (r: Result<(), Failure>)
      modifies endpointMgr.client
      ensures endpointMgr.client.sent == old(endpointMgr.client.sent)
        + [Request(Delete, ApiBaseUrl + ("/library/components/" + id), endpointMgr.client.defaultHeaders, None)]
      ensures endpointMgr.client.defaultHeaders == old(endpointMgr.client.defaultHeaders)
      ensures endpointMgr.client.pending == Tail(old(endpointMgr.client.pending))
      ensures r == DeleteCall(Head(old(endpointMgr.client.pending)), codecs.lib)
    {
      r := DeleteResource("/library/components/" + id);
    }

    method DeleteCategory(id: string) returns (r: Result<(), Failure>)
      modifies endpointMgr.client
      ensures endpointMgr.client.sent == old(endpointMgr.client.sent)
        + [Request(Delete, ApiBaseUrl + ("/library/categories/" + id), endpointMgr.client.defaultHeaders, None)]
      ensures endpointMgr.client.defaultHeaders == old(endpointMgr.client.defaultHeaders)
      ensures endpointMgr.client.pending == Tail(old(endpointMgr.client.pending))
      ensures r == DeleteCall(Head(old(endpointMgr.client.pending)), codecs.lib)
    {
      r := DeleteResource("/library/categories/" + id);
    }

    method DeleteApplication(id: string) returns (r: Result<(), Failure>)
      modifies endpointMgr.client
      ensures endpointMgr.client.sent == old(endpointMgr.client.sent)
        + [Request(Delete, ApiBaseUrl + ("/library/applications/" + id), endpointMgr.client.defaultHeaders, None)]
      ensures endpointMgr.client.defaultHeaders == old(endpointMgr.client.defaultHeaders)
      ensures endpointMgr.client.pending == Tail(old(endpointMgr.client.pending))
      ensures r == DeleteCall(Head(old(endpointMgr.client.pending)), codecs.lib)
    {
      r := DeleteResource("/library/applications/" + id);
    }

    method DeleteManufacturer(id: string) returns (r: Result<(), Failure>)
      modifies endpointMgr.client
      ensures endpointMgr.client.sent == old(endpointMgr.client.sent)
        + [Request(Delete, ApiBaseUrl + ("/library/manufacturers/" + id), endpointMgr.client.defaultHeaders, None)]
      ensures endpointMgr.client.defaultHeaders == old(endpointMgr.client.defaultHeaders)
      ensures endpointMgr.client.pending == Tail(old(endpointMgr.client.pending))
      ensures r == DeleteCall(Head(old(endpointMgr.client.pending)), codecs.lib)
    {
      r := DeleteResource("/library/manufacturers/" + id);
    }

    /** Deletes the planned paths in order, stopping at the first null entry or
        rejected deletion. */
    method DeleteAll(plan: seq<Option<string>>) returns (outcome: Result<(), Failure>)
      modifies endpointMgr.client
      ensures Ran(plan, old(endpointMgr.client.pending), codecs.lib, old(endpointMgr.client.sent),
                  old(endpointMgr.client.defaultHeaders), outcome, endpointMgr.client.sent, endpointMgr.client.pending)
      ensures endpointMgr.client.defaultHeaders == old(endpointMgr.client.defaultHeaders)
    {
      var client := endpointMgr.client;
      ghost var whole := DeleteRun(plan, client.pending, codecs.lib);
      ghost var headers := client.defaultHeaders;
      ghost var sent0 := client.sent;
      ghost var issued: seq<string> := [];
      var i := 0;
      while i < |plan|
        invariant 0 <= i <= |plan|
        invariant client.defaultHeaders == headers
        invariant client.sent == sent0 + DeleteRequests(issued, headers)
        invariant Continues(whole, issued, DeleteRun(plan[i..], client.pending, codecs.lib))
      {
        DeleteRunStep(plan[i..], client.pending, codecs.lib);
        assert plan[i..][0] == plan[i] && plan[i..][1..] == plan[i + 1..];
        if plan[i].None? {
          return Failure(NullReference("cleanup entry"));
        }
        var path := plan[i].value;
        var res := DeleteResource(path);
        SentGrows(sent0, issued, path, headers);
        if res.Failure? {
          assert whole.issued == issued + [path];
          return res;
        }
        ContinuesShift(whole, issued, path, DeleteRun(plan[i + 1..], client.pending, codecs.lib));
        issued := issued + [path];
        i := i + 1;
      }
      assert plan[i..] == [];
      return Success(());
    }

    /** Deletes the paths of one more cleanup list after the lists `done`, which were
        deleted successfully. */
    method DeleteNext(ghost done: seq<Option<string>>, p: seq<Option<string>>,
                      ghost script: seq<Reply>, ghost sent0: seq<Request>, ghost outcome0: Result<(), Failure>)
      returns (outcome: Result<(), Failure>)
      requires Ran(done, script, codecs.lib, sent0, endpointMgr.client.defaultHeaders, outcome0,
                   endpointMgr.client.sent, endpointMgr.client.pending) && outcome0.Success?
      modifies endpointMgr.client
      ensures endpointMgr.client.defaultHeaders == old(endpointMgr.client.defaultHeaders)
      ensures Ran(done + p, script, codecs.lib, sent0, endpointMgr.client.defaultHeaders, outcome,
                  endpointMgr.client.sent, endpointMgr.client.pending)
    {
      var client := endpointMgr.client;
      ghost var headers, sentA, pendingA := client.defaultHeaders, client.sent, client.pending;
      outcome := DeleteAll(p);
      RanChains(done, p, script, codecs.lib, sent0, headers, outcome0, sentA, pendingA, outcome, client.sent, client.pending);
    }

    /** Deletes everything remembered for cleanup: the components, then the catalogs,
        categories, applications and manufacturers, each list in insertion order; the
        first failure ends the disposal. */
    method DisposeAsync() returns (outcome: Result<(), Failure>)
      modifies endpointMgr.client
      ensures Ran(DisposalPlan(), old(endpointMgr.client.pending), codecs.lib, old(endpointMgr.client.sent),
                  old(endpointMgr.client.defaultHeaders), outcome, endpointMgr.client.sent, endpointMgr.client.pending)
      ensures endpointMgr.client.defaultHeaders == old(endpointMgr.client.defaultHeaders)
    {
      var client := endpointMgr.client;
      ghost var script, sent0 := client.pending, client.sent;
      var p1 := CleanupPaths("components", components, (c: Component) => c.id);
      var p2 := CleanupPaths("catalogs", catalogs, (c: Catalog) => c.id);
      var p3 := CleanupPaths("categories", categories, (c: Category) => c.id);
      var p4 := CleanupPaths("applications", applications, (a: Application) => a.id);
      var p5 := CleanupPaths("manufacturers", manufacturers, (m: Manufacturer) => m.id);
      assert DisposalPlan() == p1 + p2 + p3 + p4 + p5;
      assert sent0 + DeleteRequests([], client.defaultHeaders) == sent0;
      ghost var done: seq<Option<string>> := [];
      ghost var todo := p1 + p2 + p3 + p4 + p5;
      outcome := Success(());
      outcome := DeleteNext(done, p1, script, sent0, outcome);
      done, todo := done + p1, p2 + p3 + p4 + p5;
      if outcome.Success? {
        outcome := DeleteNext(done, p2, script, sent0, outcome);
        done, todo := done + p2, p3 + p4 + p5;
      }
      if outcome.Success? {
        outcome := DeleteNext(done, p3, script, sent0, outcome);
        done, todo := done + p3, p4 + p5;
      }
      if outcome.Success? {
        outcome := DeleteNext(done, p4, script, sent0, outcome);
        done, todo := done + p4, p5;
      }
      if outcome.Success? {
        outcome := DeleteNext(done, p5, script, sent0, outcome);
        done, todo := done + p5, [];
      }
      DisposalDone(done, todo, p1, p2, p3, p4, p5);
      RanStops(done, todo, script, codecs.lib, sent0, client.defaultHeaders, outcome, client.sent, client.pending);
      assert done + todo == DisposalPlan();
    }

    // ----- Others -----

    /** Creates a not yet available document, uploads its file and updates it as
        available. The first GUIDs name the created body; the second are drawn (and
        overwritten) by the conversion back into a body. */
    method AddComponentDocument(componentId: string, purpose: Purpose, ext: Option<string>, filePath: string,
                                fileExists: bool, g1: Guids, g2: Guids) returns (r: Result<Option<Document>, Failure>)
      requires Valid()
      modifies endpointMgr.client
      ensures var created := CreateCallAs(Head(old(endpointMgr.client.pending)), codecs.lib, ContainerKey(Aliases, "Document", false), codecs.document.decode);
        var createRequest := Request(Post, ApiBaseUrl + ("/library/components/" + componentId + "/documents"),
                                     endpointMgr.client.defaultHeaders, Some(codecs.documentPost.encode(NewDocumentPost(purpose, ext, g1))));
        && (created.Failure? ==> r == Failure(created.error) && endpointMgr.client.sent == old(endpointMgr.client.sent) + [createRequest])
        && (created.Success? ==>
              var target := UploadTarget(created.value, filePath, fileExists, codecs.uri);
              && (target.Failure? ==> r == Failure(target.error) && endpointMgr.client.sent == old(endpointMgr.client.sent) + [createRequest])
              && (target.Success? ==>
                    var body := ConvertToDocumentPost(target.value, g2, codecs.uri).(available := true);
                    && endpointMgr.client.sent == old(endpointMgr.client.sent) + [createRequest,
                         Request(Put, ApiBaseUrl + ("/library/components/" + componentId + "/documents/" + Interp(target.value.id)),
                                 endpointMgr.client.defaultHeaders, Some(codecs.documentPost.encode(body)))]
                    && r == UpdateCallAs(Head(Tail(old(endpointMgr.client.pending))), codecs.lib,
                                         ContainerKey(Aliases, "Document", false), codecs.document.decode)))
      ensures var created := CreateCallAs(Head(old(endpointMgr.client.pending)), codecs.lib, ContainerKey(Aliases, "Document", false), codecs.document.decode);
        endpointMgr.client.pending ==
          if created.Success? && UploadTarget(created.value, filePath, fileExists, codecs.uri).Success?
          then Tail(Tail(old(endpointMgr.client.pending)))
          else Tail(old(endpointMgr.client.pending))
      ensures endpointMgr.client.defaultHeaders == old(endpointMgr.client.defaultHeaders)
    {
      var docToCreate := NewDocumentPost(purpose, ext, g1);
      var document := CreateComponentDocument(docToCreate, componentId);
      if document.Failure? {
        return Failure(document.error);
      }
      var target := UploadTarget(document.value, filePath, fileExists, codecs.uri);
      if target.Failure? {
        return Failure(target.error);
      }
      var docToUpdate := ConvertToDocumentPost(target.value, g2, codecs.uri);
      docToUpdate := docToUpdate.(available := true);
      r := UpdateComponentDocument(docToUpdate, Interp(target.value.id), componentId);
    }
  }

  /** What `AddComponentDocument` needs of the created document before the upload:
      the document, its links and its file link must not be null, the file must exist
      and the file link must be an absolute URL. */
  function UploadTarget(created: Option<Document>, filePath: string, fileExists: bool, uri: UriParser): (r: Result<Document, Failure>)
    ensures r.Success? ==> created == Some(r.value) && fileExists
    ensures r.Success? ==> r.value.links.Some? && r.value.links.value.fileUrl.Some?
    ensures r.Success? ==> r.value.links.value.fileUrl.value.href.Some?
    ensures r.Success? ==> uri.tryCreateAbsolute(r.value.links.value.fileUrl.value.href.value).Some?
    ensures created.None? ==> r == Failure(NullReference("document"))
    ensures created.Some? && created.value.links.None? ==> r == Failure(NullReference("document.Links"))
    ensures (created.Some? && created.value.links.Some? && created.value.links.value.fileUrl.None?)
              ==> r == Failure(NullReference("document.Links.FileUrl"))
    ensures (created.Some? && created.value.links.Some? && created.value.links.value.fileUrl.Some? && !fileExists)
              ==> r == Failure(FileNotFound(filePath))
    ensures (created.Some? && created.value.links.Some? && created.value.links.value.fileUrl.Some? && fileExists
             && (created.value.links.value.fileUrl.value.href.None?
                 || uri.tryCreateAbsolute(created.value.links.value.fileUrl.value.href.value).None?))
              ==> r == Failure(InvalidUrl(created.value.links.value.fileUrl.value.href))
    ensures (created.Some? && created.value.links.Some? && created.value.links.value.fileUrl.Some? && fileExists
             && created.value.links.value.fileUrl.value.href.Some?
             && uri.tryCreateAbsolute(created.value.links.value.fileUrl.value.href.value).Some?)
              ==> r == Success(created.value)
  {
    match created
    case None => Failure(NullReference("document"))
    case Some(d) =>
      match d.links
      case None => Failure(NullReference("document.Links"))
      case Some(links) =>
        match links.fileUrl
        case None => Failure(NullReference("document.Links.FileUrl"))
        case Some(fileUrl) =>
          if !fileExists then Failure(FileNotFound(filePath))
          else if fileUrl.href.None? || uri.tryCreateAbsolute(fileUrl.href.value).None? then Failure(InvalidUrl(fileUrl.href))
          else Success(d)
  }

  /** The document is created unavailable and updated as available, with every other
      field the conversion copies from what the service returned. */
  lemma AvailableFlips(purpose: Purpose, ext: Option<string>, d: Document, g1: Guids, g2: Guids, uri: UriParser)
    ensures !NewDocumentPost(purpose, ext, g1).available
    ensures var body := ConvertToDocumentPost(d, g2, uri).(available := true);
      body.available && body.displayName == d.displayName && body.isActive == d.isActive
      && body.version == d.version && body.purpose == d.purpose && body.extension == d.extension
  {
  }
}

=== FILE: models.dfy ===
/** The plain data classes of the library service (catalogs, components, documents,
    jobs, ...) as datatypes. A C# reference or string that may be null is an Option;
    creation and modification timestamps and `double` fields are not modelled.
    The default constructors of the data classes draw fresh GUIDs; here the GUID text
    is a parameter. */
module Models {
  import opened Wrappers

  /** The text of `Guid.NewGuid().ToString()`: 32 hex digits and four hyphens. */
  type GuidText = s: string | |s| == 36 witness "00000000-0000-0000-0000-000000000000"

  /** Three fresh GUIDs, one per `Guid.NewGuid()` a constructor may call, in call order. */
  datatype Guids = Guids(first: GuidText, second: GuidText, third: GuidText)

  const NamePrefix: string := "iTwinSample Name "
  const DescriptionPrefix: string := "iTwinSample Description "
  const HashtagPrefix: string := "iTwinSampleHashTag_"
  const VersionPrefix: string := "iTwinSample Version "

  /** `$"iTwinSampleHashTag_{guid}".Substring(0, 50)`; the text is 55 characters long,
      so the substring never throws. */
  function Hashtag(g: GuidText): (h: string)
    ensures |h| == 50 && HashtagPrefix <= h
    ensures h == HashtagPrefix + g[..31]
  {
    (HashtagPrefix + g)[..50]
  }

  /** A hyperlink object of the service's JSON (`{ "href": ... }`). */
  datatype Link = Link(href: Option<string>)

  /** `link?.Href`: the target of a link that may be null. */
  function HrefOf(l: Option<Link>): (h: Option<string>)
    ensures h.Some? <==> l.Some? && l.value.href.Some?
    ensures h.Some? ==> h == l.value.href
  {
    match l
    case None => None
    case Some(link) => link.href
  }

  /** The `_links` sibling of a list envelope. */
  datatype PaginationLinks = PaginationLinks(self: Option<Link>, next: Option<Link>, prev: Option<Link>)

  /** The `error` sibling of a failure envelope. */
  datatype ErrorDetails = ErrorDetails(code: Option<string>, message: Option<string>)

  datatype ComponentState = Draft | Published | Checked | Approved | Archived

  datatype ComponentLinks = ComponentLinks(
    catalogs: Option<seq<Option<Link>>>,
    application: Option<Link>,
    manufacturer: Option<Link>,
    category: Option<Link>)

  datatype Component = Component(
    id: Option<string>,
    displayName: Option<string>,
    description: Option<string>,
    hashtags: Option<seq<string>>,
    state: ComponentState,
    supportedFileTypes: Option<seq<string>>,
    links: Option<ComponentLinks>)

  datatype Purpose = Design | Thumbnail | Reference | GalleryImage | TypeCatalog

  datatype DocumentLinks = DocumentLinks(associatedDesignDocument: Option<Link>, fileUrl: Option<Link>)

  datatype Document = Document(
    id: Option<string>,
    displayName: Option<string>,
    extension: Option<string>,
    purpose: Purpose,
    size: int,
    available: bool,
    isActive: bool,
    version: Option<string>,
    previousVersionId: Option<string>,
    links: Option<DocumentLinks>)

  datatype Catalog = Catalog(
    id: Option<string>,
    displayName: Option<string>,
    description: Option<string>,
    region: Option<string>,
    hashtags: Option<seq<string>>)

  datatype Category = Category(id: Option<string>, displayName: Option<string>)

  datatype Application = Application(id: Option<string>, displayName: Option<string>, version: Option<string>)

  datatype Manufacturer = Manufacturer(
    id: Option<string>,
    displayName: Option<string>,
    phone: Option<string>,
    address: Option<string>,
    website: Option<string>)

  datatype WebLink = WebLink(id: Option<string>, displayName: Option<string>, uri: Option<string>)

  /** A variation of a component; its ad-hoc property list is not modelled. */
  datatype Variation = Variation(id: Option<string>, displayName: Option<string>, associatedDesignDocument: Option<string>)

  datatype JobLinks = JobLinks(component: Option<Link>)

  /** A long-running server job; `Progress` (a double) is not modelled. */
  datatype Job = Job(
    id: Option<string>,
    displayName: Option<string>,
    jobSize: int,
    status: Option<string>,
    jobType: Option<string>,
    links: Option<JobLinks>)

  /** `new Catalog()`: GUID-named, with a GUID description, region "US" and one
      50-character hashtag. The three GUIDs are drawn in the order name, description,
      hashtag. */
  function NewCatalog(g: Guids): (c: Catalog)
    ensures c.id.None? && c.region == Some("US")
    ensures c.displayName == Some(NamePrefix + g.first)
    ensures c.description == Some(DescriptionPrefix + g.second)
    ensures c.hashtags.Some? && |c.hashtags.value| == 1
    ensures |c.hashtags.value[0]| == 50 && HashtagPrefix <= c.hashtags.value[0]
  {
    Catalog(None, Some(NamePrefix + g.first), Some(DescriptionPrefix + g.second), Some("US"), Some([Hashtag(g.third)]))
  }

  /** `new Category()`. */
  function NewCategory(g: Guids): (c: Category)
    ensures c.id.None? && c.displayName == Some(NamePrefix + g.first)
  {
    Category(None, Some(NamePrefix + g.first))
  }

  /** `new Application()`: a GUID name, then a GUID version. */
  function NewApplication(g: Guids): (a: Application)
    ensures a.id.None? && a.displayName == Some(NamePrefix + g.first)
    ensures a.version == Some(VersionPrefix + g.second)
  {
    Application(None, Some(NamePrefix + g.first), Some(VersionPrefix + g.second))
  }

  /** `new Manufacturer()`: a GUID name and the sample's fixed phone, address and
      website. */
  function NewManufacturer(g: Guids): (m: Manufacturer)
    ensures m.id.None? && m.displayName == Some(NamePrefix + g.first)
    ensures m.phone == Some("1 999 8765")
    ensures m.address == Some("999 Main St, iTwin Sample Address 12345")
    ensures m.website == Some("www.itwinsamplewebportal.com")
  {
    Manufacturer(None, Some(NamePrefix + g.first), Some("1 999 8765"),
      Some("999 Main St, iTwin Sample Address 12345"), Some("www.itwinsamplewebportal.com"))
  }
}

=== FILE: naming.dfy ===
/** How the endpoint layer finds the payload in a response envelope: the lower-cased
    name of the expected type, with an `s` for lists, corrected through a small alias
    table for the keys whose JSON spelling is camel-cased. */
module Naming {

  /** `char.ToLower` on ASCII letters; every other character is left alone. */
  function LowerChar(c: char): (d: char)
    ensures 'A' <= c <= 'Z' ==> d as int == c as int + 32
    ensures !('A' <= c <= 'Z') ==> d == c
    ensures !('A' <= d <= 'Z')
  {
    if 'A' <= c <= 'Z' then (c as int + 32) as char else c
  }

  /** `string.ToLower()` restricted to ASCII letters. */
  function Lower(s: string): (r: string)
    ensures |r| == |s|
    decreases |s|
  {
    if s == [] then [] else Lower(s[..|s| - 1]) + [LowerChar(s[|s| - 1])]
  }

  lemma {:induction false} LowerAt(s: string, i: int)
    requires 0 <= i < |s|
    ensures Lower(s)[i] == LowerChar(s[i])
    decreases |s|
  {
    if i < |s| - 1 {
      LowerAt(s[..|s| - 1], i);
    }
  }

  /** A string is lower case when no character is an upper-case ASCII letter. */
  predicate IsLower(s: string) {
    forall i :: 0 <= i < |s| ==> !('A' <= s[i] <= 'Z')
  }

  /** The result of `Lower` is lower case and agrees with the input up to case. */
  lemma LowerIsLower(s: string)
    ensures IsLower(Lower(s))
    ensures forall i :: 0 <= i < |s| ==> Lower(s)[i] == LowerChar(s[i])
  {
    forall i | 0 <= i < |s|
      ensures Lower(s)[i] == LowerChar(s[i])
    {
      LowerAt(s, i);
    }
  }

  /** Lower-casing twice is lower-casing once. */
  lemma LowerIdempotent(s: string)
    ensures Lower(Lower(s)) == Lower(s)
  {
    LowerIsLower(s);
    LowerIsLower(Lower(s));
  }

  /** A lower-case string is its own lower case. */
  lemma LowerOfLower(s: string)
    requires IsLower(s)
    ensures Lower(s) == s
  {
    LowerIsLower(s);
  }

  /** Lower-casing works character by character, so it distributes over concatenation. */
  lemma LowerAppend(a: string, b: string)
    ensures Lower(a + b) == Lower(a) + Lower(b)
  {
    LowerIsLower(a);
    LowerIsLower(b);
    LowerIsLower(a + b);
  }

  /** Lower-casing `s` gives `t` when they agree character by character. */
  lemma LowerIs(s: string, t: string)
    requires |s| == |t|
    requires forall i :: 0 <= i < |s| ==> LowerChar(s[i]) == t[i]
    ensures Lower(s) == t
  {
    LowerIsLower(s);
  }

  /** The alias table of the endpoint manager: derived key to the key the service uses. */
  const Aliases: map<string, string> := map[
    "uploadcomponent" := "uploadComponent",
    "weblink" := "webLink",
    "weblinks" := "webLinks"]

  /** The key derived from a type name: lower-cased, with a plural `s` for lists. */
  function DerivedKey(typeName: string, plural: bool): (k: string)
    ensures |k| == |typeName| + (if plural then 1 else 0)
    ensures IsLower(k)
    ensures forall i :: 0 <= i < |typeName| ==> k[i] == LowerChar(typeName[i])
    ensures plural ==> k[|typeName|] == 's'
  {
    LowerIsLower(typeName);
    Lower(typeName) + (if plural then "s" else "")
  }

  /** The envelope key a call looks up: the derived key, replaced by its alias when the
      table has one. */
  function ContainerKey(table: map<string, string>, typeName: string, plural: bool): (k: string)
    ensures DerivedKey(typeName, plural) in table ==> k == table[DerivedKey(typeName, plural)]
    ensures DerivedKey(typeName, plural) !in table ==> k == DerivedKey(typeName, plural)
  {
    var derived := DerivedKey(typeName, plural);
    if derived in table then table[derived] else derived
  }

  /** Every alias differs from its key only in case. */
  lemma AliasesOnlyChangeCase()
    ensures forall k :: k in Aliases ==> Lower(Aliases[k]) == k
  {
    assert Lower("uploadComponent") == "uploadcomponent" by {
      LowerIs("uploadComponent", "uploadcomponent");
    }
    assert Lower("webLink") == "weblink" by {
      LowerIs("webLink", "weblink");
    }
    assert Lower("webLinks") == "weblinks" by {
      LowerIs("webLinks", "weblinks");
    }
  }

  /** The key looked up is always the derived key up to case: the alias table never
      points a call at another entity's payload. */
  lemma ContainerKeyMatchesUpToCase(typeName: string, plural: bool)
    ensures Lower(ContainerKey(Aliases, typeName, plural)) == DerivedKey(typeName, plural)
  {
    var derived := DerivedKey(typeName, plural);
    if derived in Aliases {
      AliasesOnlyChangeCase();
    } else {
      LowerOfLower(derived);
    }
  }

  /** A list of web links is found under `webLinks`, a single one under `webLink`. */
  lemma WebLinkKeys()
    ensures ContainerKey(Aliases, "WebLink", true) == "webLinks"
    ensures ContainerKey(Aliases, "WebLink", false) == "webLink"
  {
    assert Lower("WebLink") == "weblink" by {
      LowerIs("WebLink", "weblink");
    }
    assert DerivedKey("WebLink", true) == "weblinks";
    assert DerivedKey("WebLink", false) == "weblink";
  }

  /** A job is found under `job`, the key the job poller spells out itself. */
  lemma JobKey()
    ensures ContainerKey(Aliases, "Job", false) == "job"
  {
    assert Lower("Job") == "job" by {
      LowerIs("Job", "job");
    }
  }

  /** Keys of types without an alias: `components`, `catalogs`, `documents`. */
  lemma PlainKeys()
    ensures ContainerKey(Aliases, "Component", true) == "components"
    ensures ContainerKey(Aliases, "Catalog", false) == "catalog"
    ensures ContainerKey(Aliases, "Document", true) == "documents"
  {
    assert Lower("Component") == "component" by {
      LowerIs("Component", "component");
    }
    assert Lower("Catalog") == "catalog" by {
      LowerIs("Catalog", "catalog");
    }
    assert DerivedKey("Catalog", false) == "catalog";
    assert Lower("Document") == "document" by {
      LowerIs("Document", "document");
    }
  }
}

=== FILE: polling.dfy ===
/** Waiting for a long-running upload job: the job resource is fetched again and again
    until it reports success, reports an error, answers with a non-200 status, or the
    deadline passes. The wall clock is a parameter: `expired(k)` says whether the
    deadline test made after the k-th fetch finds the time used up. The delay between
    fetches is only counted. */
module Polling {
  import opened Wrappers
  import opened Models
  import opened Json
  import opened Http
  import opened Responses

  const JobStatusSuccess: string := "Success"
  const JobStatusInProgress: string := "InProgress"
  const JobStatusQueued: string := "Queued"
  const JobStatusError: string := "Error"

  /** The envelope key of a job, spelled out by the poller rather than derived. */
  const JobKey: string := "job"

  /** Minutes the poller is meant to wait at most. */
  const MaxWaitMinutes: nat := 5

  /** The minute-of-hour field of a clock reading (`DateTime.Now.Minute`). */
  type Minute = m: int | 0 <= m < 60

  /** Statuses after which the poller pauses before fetching again. */
  predicate ShouldDelay(status: string) {
    status == JobStatusInProgress || status == JobStatusQueued
  }

  /** What one pass of the loop body makes of a fetched reply, up to the loop test. */
  datatype Examined =
    | Threw(failure: Failure)
    | Broke(response: SingleResponse<Job>)
    | Observed(response: SingleResponse<Job>, status: string)

  /** One pass of the loop body: decode the reply as a single job; a non-200 reply
      leaves the loop with its error details; a null job or a null status dereferences
      null; the status "Error" throws. */
  function Examine(reply: Option<Reply>, lib: JsonLib, dec: Decoder<Job>): (e: Examined)
    ensures reply.None? ==> e == Threw(TransportError)
    ensures e.Broke? ==> e.response.status != OK
    ensures e.Observed? ==> reply.Some? && e.response.status == OK && e.response.instance.Some?
    ensures e.Observed? ==> e.response.instance.value.status == Some(e.status) && e.status != JobStatusError
  {
    match SingleResult(reply, lib, JobKey, dec)
    case Failure(f) => Threw(f)
    case Success(resp) =>
      if resp.status != OK then Broke(resp)
      else match resp.instance
        case None => Threw(NullReference("job"))
        case Some(job) =>
          match job.status
          case None => Threw(NullReference("job.status"))
          case Some(s) => if s == JobStatusError then Threw(JobFailed(job)) else Observed(resp, s)
  }

  datatype PollOutcome = Finished(response: SingleResponse<Job>) | Failed(failure: Failure)

  /** How the wait ended, how many fetches it made in all and how many pauses it took. */
  datatype PollResult = PollResult(outcome: PollOutcome, fetches: nat, delays: nat)

  /** The poll loop, after `done` fetches, with `replies` still to come. */
  function PollFrom(expired: nat -> bool, replies: seq<Reply>, done: nat, lib: JsonLib, dec: Decoder<Job>): (r: PollResult)
    ensures done + 1 <= r.fetches <= done + |replies| + 1
    ensures r.delays <= r.fetches - done
    decreases |replies|
  {
    var e := Examine(Head(replies), lib, dec);
    match e
    case Threw(f) => PollResult(Failed(f), done + 1, 0)
    case Broke(resp) => PollResult(Finished(resp), done + 1, 0)
    case Observed(resp, s) =>
      var d := if ShouldDelay(s) then 1 else 0;
      if !expired(done + 1) && s != JobStatusSuccess then
        var rest := PollFrom(expired, replies[1..], done + 1, lib, dec);
        PollResult(rest.outcome, rest.fetches, rest.delays + d)
      else
        PollResult(Finished(resp), done + 1, d)
  }

  /** The deadline test as written: the minute of the hour is compared with the
      starting minute plus five. */
  function MinuteExpiry(clock: nat -> Minute): nat -> bool {
    (k: nat) => clock(k) >= clock(0) + MaxWaitMinutes
  }

  /** The intended deadline test: minutes elapsed since the start reach five. */
  function ElapsedExpiry(elapsed: nat -> nat): nat -> bool {
    (k: nat) => elapsed(k) >= MaxWaitMinutes
  }

  /** A reply that decodes to a job reporting `s`. */
  predicate Reports(r: Reply, lib: JsonLib, dec: Decoder<Job>, s: string) {
    var e := Examine(Some(r), lib, dec);
    e.Observed? && e.status == s
  }

  /** A job that reports success at the next fetch ends the wait with that response,
      at once and without a pause, whatever the deadline. */
  lemma FirstFetchSucceeds(expired: nat -> bool, replies: seq<Reply>, done: nat, lib: JsonLib, dec: Decoder<Job>)
    requires |replies| > 0 && Reports(replies[0], lib, dec, JobStatusSuccess)
    ensures PollFrom(expired, replies, done, lib, dec)
      == PollResult(Finished(Examine(Some(replies[0]), lib, dec).response), done + 1, 0)
    ensures PollFrom(expired, replies, done, lib, dec).outcome.response.instance.value.status == Some(JobStatusSuccess)
  {
  }

  /** A 200 reply whose job reports "Error" ends the wait at once with a failure
      carrying that job, whatever the deadline. */
  lemma ErrorStatusFails(expired: nat -> bool, replies: seq<Reply>, done: nat, lib: JsonLib, dec: Decoder<Job>, job: Job)
    requires |replies| > 0
    requires SingleResult(Some(replies[0]), lib, JobKey, dec).Success?
    requires SingleResult(Some(replies[0]), lib, JobKey, dec).value.status == OK
    requires SingleResult(Some(replies[0]), lib, JobKey, dec).value.instance == Some(job)
    requires job.status == Some(JobStatusError)
    ensures PollFrom(expired, replies, done, lib, dec) == PollResult(Failed(JobFailed(job)), done + 1, 0)
  {
  }

  /** A non-200 reply ends the wait with that status and the error details of its body,
      and no job; error details that do not decode make it a failure instead. */
  lemma RejectedFetchStops(expired: nat -> bool, replies: seq<Reply>, done: nat, lib: JsonLib, dec: Decoder<Job>)
    requires |replies| > 0 && replies[0].status != OK
    requires lib.parse(replies[0].content).Some?
    ensures var e := ErrorOf(lib.parse(replies[0].content).value, lib);
      e.Success? ==>
        PollFrom(expired, replies, done, lib, dec)
          == PollResult(Finished(SingleResponse(replies[0].status, replies[0].content, e.value, None)), done + 1, 0)
    ensures var e := ErrorOf(lib.parse(replies[0].content).value, lib);
      e.Failure? ==> PollFrom(expired, replies, done, lib, dec) == PollResult(Failed(e.error), done + 1, 0)
  {
  }

  /** One pause for a reply that shows the job in progress or queued, none otherwise. */
  function Pause(reply: Reply, lib: JsonLib, dec: Decoder<Job>): nat {
    var e := Examine(Some(reply), lib, dec);
    if e.Observed? && ShouldDelay(e.status) then 1 else 0
  }

  /** The pauses the first `n` replies call for. */
  function Pauses(replies: seq<Reply>, n: nat, lib: JsonLib, dec: Decoder<Job>): nat
    requires n <= |replies|
    decreases n
  {
    if n == 0 then 0 else Pause(replies[0], lib, dec) + Pauses(replies[1..], n - 1, lib, dec)
  }

  /** The poller pauses exactly after the fetched replies that show the job in progress
      or queued: the pauses of a wait are those its fetched replies call for. */
  lemma {:induction false} PausesFollowObservations(expired: nat -> bool, replies: seq<Reply>, done: nat, lib: JsonLib, dec: Decoder<Job>)
    ensures var r := PollFrom(expired, replies, done, lib, dec);
      var fetched := if r.fetches - done <= |replies| then r.fetches - done else |replies|;
      r.delays == Pauses(replies, fetched, lib, dec)
    decreases |replies|
  {
    var r := PollFrom(expired, replies, done, lib, dec);
    if replies != [] {
      var e := Examine(Head(replies), lib, dec);
      assert Pauses(replies, 1, lib, dec) == Pause(replies[0], lib, dec);
      if e.Observed? && !expired(done + 1) && e.status != JobStatusSuccess {
        PausesFollowObservations(expired, replies[1..], done + 1, lib, dec);
      }
    }
  }

  /** Queued, then in progress, then success: three fetches and two pauses, provided
      the deadline does not pass in between. */
  lemma QueuedThenSucceeds(expired: nat -> bool, replies: seq<Reply>, lib: JsonLib, dec: Decoder<Job>)
    requires |replies| == 3
    requires Reports(replies[0], lib, dec, JobStatusQueued)
    requires Reports(replies[1], lib, dec, JobStatusInProgress)
    requires Reports(replies[2], lib, dec, JobStatusSuccess)
    requires !expired(1) && !expired(2)
    ensures PollFrom(expired, replies, 0, lib, dec).outcome == Finished(Examine(Some(replies[2]), lib, dec).response)
    ensures PollFrom(expired, replies, 0, lib, dec).outcome.response.instance.value.status == Some(JobStatusSuccess)
    ensures PollFrom(expired, replies, 0, lib, dec).fetches == 3
    ensures PollFrom(expired, replies, 0, lib, dec).delays == 2
  {
    assert replies[1..][1..] == [replies[2]];
    assert PollFrom(expired, replies[1..][1..], 2, lib, dec) == PollResult(Finished(Examine(Some(replies[2]), lib, dec).response), 3, 0);
  }

  /** A deadline that has passed ends the wait even though the job is still running:
      the caller gets the unfinished job as the result. */
  lemma DeadlineReturnsUnfinishedJob(expired: nat -> bool, replies: seq<Reply>, lib: JsonLib, dec: Decoder<Job>)
    requires |replies| > 0 && Reports(replies[0], lib, dec, JobStatusInProgress) && expired(1)
    ensures PollFrom(expired, replies, 0, lib, dec).outcome.Finished?
    ensures PollFrom(expired, replies, 0, lib, dec).outcome.response.instance.value.status == Some(JobStatusInProgress)
    ensures PollFrom(expired, replies, 0, lib, dec).fetches == 1
  {
  }

  /** While the deadline never passes and the job keeps running, the poller fetches
      until the network has nothing left: one fetch per reply and one more, one pause
      per reply. */
  lemma {:induction false} RunningJobExhaustsScript(expired: nat -> bool, replies: seq<Reply>, done: nat, lib: JsonLib, dec: Decoder<Job>)
    requires forall k :: !expired(k)
    requires forall i :: 0 <= i < |replies| ==> Reports(replies[i], lib, dec, JobStatusInProgress)
    ensures PollFrom(expired, replies, done, lib, dec) == PollResult(Failed(TransportError), done + |replies| + 1, |replies|)
    decreases |replies|
  {
    if replies != [] {
      assert Reports(replies[0], lib, dec, JobStatusInProgress);
      RunningJobExhaustsScript(expired, replies[1..], done + 1, lib, dec);
    }
  }

  /** Once the deadline test passes for good from the n-th check on, the poller makes
      at most n fetches, however long the job runs. */
  lemma {:induction false} ExpiryBoundsFetches(expired: nat -> bool, replies: seq<Reply>, done: nat, lib: JsonLib, dec: Decoder<Job>, n: nat)
    requires done < n
    requires forall k :: k >= n ==> expired(k)
    ensures PollFrom(expired, replies, done, lib, dec).fetches <= n
    decreases |replies|
  {
    var e := Examine(Head(replies), lib, dec);
    if e.Observed? && !expired(done + 1) && e.status != JobStatusSuccess {
      assert done + 1 < n;
      ExpiryBoundsFetches(expired, replies[1..], done + 1, lib, dec, n);
    }
  }

  /** As written, a wait started in the last five minutes of an hour never meets its
      deadline: the minute of the hour cannot reach 60. */
  lemma LateStartNeverExpires(clock: nat -> Minute)
    requires clock(0) >= 60 - MaxWaitMinutes
    ensures forall k :: !MinuteExpiry(clock)(k)
  {
  }

  /** With the intended test and a clock that does not run backwards, the wait ends
      no later than the first check at which five minutes have elapsed. */
  lemma ElapsedExpiryBoundsFetches(elapsed: nat -> nat, replies: seq<Reply>, lib: JsonLib, dec: Decoder<Job>, n: nat)
    requires n >= 1 && elapsed(n) >= MaxWaitMinutes
    requires forall j, k :: j <= k ==> elapsed(j) <= elapsed(k)
    ensures PollFrom(ElapsedExpiry(elapsed), replies, 0, lib, dec).fetches <= n
  {
    forall k | k >= n
      ensures ElapsedExpiry(elapsed)(k)
    {
      assert elapsed(n) <= elapsed(k);
    }
    ExpiryBoundsFetches(ElapsedExpiry(elapsed), replies, 0, lib, dec, n);
  }

  /** One fetch a minute, started at minute 55 of the hour (the clock wraps to 0 at the
      hour), with a job that stays in progress for ten fetches: the deadline as written
      never stops the wait, which runs for ten minutes, while the intended deadline
      stops it after five fetches. */
  lemma MinuteDeadlineOverrun(replies: seq<Reply>, lib: JsonLib, dec: Decoder<Job>)
    requires |replies| == 10
    requires forall i :: 0 <= i < |replies| ==> Reports(replies[i], lib, dec, JobStatusInProgress)
    ensures PollFrom(MinuteExpiry((k: nat) => (55 + k) % 60), replies, 0, lib, dec).fetches == 11
    ensures PollFrom(ElapsedExpiry((k: nat) => k), replies, 0, lib, dec).fetches <= 5
  {
    var clock: nat -> Minute := (k: nat) => (55 + k) % 60;
    LateStartNeverExpires(clock);
    RunningJobExhaustsScript(MinuteExpiry(clock), replies, 0, lib, dec);
    ElapsedExpiryBoundsFetches((k: nat) => k, replies, lib, dec, 5);
  }
}

=== FILE: responses.dfy ===
/** What each `Make*Call` of the endpoint manager makes of the reply it receives:
    the response record it returns, or the exception it throws. Each classifier is a
    function of the reply (None when the network gave none), the JSON library and the
    envelope key; the endpoint methods are proved to return exactly these values. */
module Responses {
  import opened Wrappers
  import opened Models
  import opened Json
  import opened Http

  /** `HttpGetResponseMessage<T>`: a list payload, null elements included. */
  datatype ListResponse<T> = ListResponse(
    status: int,
    content: string,
    errorDetails: Option<ErrorDetails>,
    instances: Option<seq<Option<T>>>,
    links: Option<PaginationLinks>)

  /** `HttpGetSingleResponseMessage<T>`. */
  datatype SingleResponse<T> = SingleResponse(
    status: int,
    content: string,
    errorDetails: Option<ErrorDetails>,
    instance: Option<T>)

  /** `HttpPostResponseMessage<T>`; only the two-type POST copies the headers. */
  datatype PostResponse<T> = PostResponse(
    status: int,
    content: string,
    headers: Option<seq<Header>>,
    errorDetails: Option<ErrorDetails>,
    newInstance: Option<T>)

  /** `HttpUpdateResponseMessage<T>`. */
  datatype UpdateResponse<T> = UpdateResponse(
    status: int,
    content: string,
    errorDetails: Option<ErrorDetails>,
    updatedInstance: Option<T>)

  /** `HttpResponseMessage<T>` of a DELETE; the body is not read on 204. */
  datatype DeleteResponse = DeleteResponse(
    status: int,
    content: Option<string>,
    errorDetails: Option<ErrorDetails>)

  /** `token.ToObject<T>()` on a present token: a JSON null gives a null instance,
      anything else goes to the decoder, whose failure is a thrown exception. */
  function DecodeToken<T>(token: Json, key: string, dec: Decoder<T>): (r: Result<Option<T>, Failure>)
    ensures token.Null? ==> r == Success(None)
    ensures !token.Null? && dec(token).None? ==> r == Failure(DecodeError(key))
    ensures !token.Null? && dec(token).Some? ==> r == Success(dec(token))
  {
    if token.Null? then Success(None)
    else match dec(token)
      case None => Failure(DecodeError(key))
      case Some(v) => Success(Some(v))
  }

  /** `payload[key]?.ToObject<T>()`: a missing key is a null instance. */
  function Sibling<T>(payload: JsonObject, key: string, dec: Decoder<T>): (r: Result<Option<T>, Failure>)
    ensures key !in payload ==> r == Success(None)
    ensures key in payload ==> r == DecodeToken(payload[key], key, dec)
  {
    if key in payload then DecodeToken(payload[key], key, dec) else Success(None)
  }

  /** `payload[key].ToObject<T>()`: a missing key dereferences null and throws. */
  function Payload<T>(payload: JsonObject, key: string, dec: Decoder<T>): (r: Result<Option<T>, Failure>)
    ensures key !in payload ==> r == Failure(EnvelopeKeyMissing(key))
    ensures key in payload ==> r == DecodeToken(payload[key], key, dec)
  {
    if key in payload then DecodeToken(payload[key], key, dec) else Failure(EnvelopeKeyMissing(key))
  }

  /** Decoding every element of a list in order; the first element that fails to
      decode makes the whole list fail. */
  function DecodeAll<T>(items: seq<Json>, key: string, dec: Decoder<T>): (r: Result<seq<Option<T>>, Failure>)
    ensures r.Success? <==> forall i :: 0 <= i < |items| ==> DecodeToken(items[i], key, dec).Success?
    ensures r.Success? ==> |r.value| == |items|
    ensures r.Success? ==> forall i :: 0 <= i < |items| ==> r.value[i] == DecodeToken(items[i], key, dec).value
    ensures r.Failure? ==> r == Failure(DecodeError(key))
    decreases |items|
  {
    if items == [] then Success([])
    else
      var front := DecodeAll(items[..|items| - 1], key, dec);
      var last := DecodeToken(items[|items| - 1], key, dec);
      if front.Failure? then Failure(DecodeError(key))
      else if last.Failure? then Failure(DecodeError(key))
      else Success(front.value + [last.value])
  }

  /** The error sibling every failure branch reads. */
  function ErrorOf(payload: JsonObject, lib: JsonLib): Result<Option<ErrorDetails>, Failure> {
    Sibling(payload, "error", lib.errorDetails)
  }

  /** `r` stands or falls with the read `x`: it succeeds exactly when `x` does, and
      otherwise fails with the exception `x` throws. */
  predicate Carries<A, B>(r: Result<A, Failure>, x: Result<B, Failure>) {
    (r.Success? <==> x.Success?) && (r.Failure? ==> r.error == x.error)
  }

  /** `MakeGetCall<T>`: the body is parsed whatever the status; on 200 the pagination
      links are read, then every element under the plural key is decoded; otherwise
      the error details are read. */
  function GetResult<T>(reply: Option<Reply>, lib: JsonLib, key: string, dec: Decoder<T>): (r: Result<ListResponse<T>, Failure>)
    ensures reply.None? ==> r == Failure(TransportError)
    ensures reply.Some? && lib.parse(reply.value.content).None? ==> r == Failure(MalformedBody)
    ensures r.Success? ==> reply.Some? && r.value.status == reply.value.status && r.value.content == reply.value.content
    ensures r.Success? ==> (r.value.instances.Some? <==> r.value.status == OK)
    ensures r.Success? && r.value.status == OK ==> r.value.errorDetails.None?
    ensures r.Success? && r.value.status != OK ==> r.value.links.None?
    ensures reply.Some? && lib.parse(reply.value.content).Some? && reply.value.status == OK ==>
      (var p := lib.parse(reply.value.content).value;
       var links := Sibling(p, "_links", lib.paginationLinks);
       (links.Failure? ==> r == Failure(links.error))
       && (links.Success? && key !in p ==> r == Failure(EnvelopeKeyMissing(key)))
       && (links.Success? && key in p && Elements(p[key]).None? ==> r == Failure(DecodeError(key)))
       && (r.Success? <==> links.Success? && key in p && Elements(p[key]).Some?
                           && DecodeAll(Elements(p[key]).value, key, dec).Success?)
       && (r.Success? ==> r.value.links == links.value
                          && r.value.instances == Some(DecodeAll(Elements(p[key]).value, key, dec).value)))
    ensures reply.Some? && lib.parse(reply.value.content).Some? && reply.value.status != OK ==>
      (var e := ErrorOf(lib.parse(reply.value.content).value, lib);
       Carries(r, e) && (r.Success? ==> r.value.errorDetails == e.value))
  {
    match reply
    case None => Failure(TransportError)
    case Some(rep) =>
      match lib.parse(rep.content)
      case None => Failure(MalformedBody)
      case Some(payload) =>
        if rep.status == OK then
          var links :- Sibling(payload, "_links", lib.paginationLinks);
          if key !in payload then Failure(EnvelopeKeyMissing(key))
          else match Elements(payload[key])
            case None => Failure(DecodeError(key))
            case Some(items) =>
              var instances :- DecodeAll(items, key, dec);
              Success(ListResponse(rep.status, rep.content, None, Some(instances), links))
        else
          var error :- ErrorOf(payload, lib);
          Success(ListResponse(rep.status, rep.content, error, None, None))
  }

  /** `MakeGetSingleCall<T>(url)`: the body is parsed whatever the status; on 200 the
      payload under the singular key is decoded; otherwise the error details are read. */
  function SingleResult<T>(reply: Option<Reply>, lib: JsonLib, key: string, dec: Decoder<T>): (r: Result<SingleResponse<T>, Failure>)
    ensures reply.None? ==> r == Failure(TransportError)
    ensures reply.Some? && lib.parse(reply.value.content).None? ==> r == Failure(MalformedBody)
    ensures r.Success? ==> reply.Some? && r.value.status == reply.value.status && r.value.content == reply.value.content
    ensures r.Success? && r.value.instance.Some? ==> r.value.status == OK
    ensures r.Success? && r.value.status == OK ==> r.value.errorDetails.None?
    ensures reply.Some? && lib.parse(reply.value.content).Some? && reply.value.status == OK ==>
      (var p := lib.parse(reply.value.content).value;
       (key !in p ==> r == Failure(EnvelopeKeyMissing(key)))
       && Carries(r, Payload(p, key, dec)) && (r.Success? ==> r.value.instance == Payload(p, key, dec).value))
    ensures reply.Some? && lib.parse(reply.value.content).Some? && reply.value.status != OK ==>
      (var e := ErrorOf(lib.parse(reply.value.content).value, lib);
       Carries(r, e) && (r.Success? ==> r.value.errorDetails == e.value))
  {
    match reply
    case None => Failure(TransportError)
    case Some(rep) =>
      match lib.parse(rep.content)
      case None => Failure(MalformedBody)
      case Some(payload) =>
        if rep.status == OK then
          var instance :- Payload(payload, key, dec);
          Success(SingleResponse(rep.status, rep.content, None, instance))
        else
          var error :- ErrorOf(payload, lib);
          Success(SingleResponse(rep.status, rep.content, error, None))
  }

  /** `MakePostCall<T>`: an empty body echoes the posted model as the new instance and
      is not parsed; otherwise 201 decodes the payload and anything else reads the
      error details. */
  function PostResult<T>(reply: Option<Reply>, lib: JsonLib, key: string, dec: Decoder<T>, model: T): (r: Result<PostResponse<T>, Failure>)
    ensures reply.None? ==> r == Failure(TransportError)
    ensures reply.Some? && reply.value.content == "" ==>
      r == Success(PostResponse(reply.value.status, "", None, None, Some(model)))
    ensures reply.Some? && reply.value.content != "" && lib.parse(reply.value.content).None? ==> r == Failure(MalformedBody)
    ensures r.Success? ==> reply.Some? && r.value.status == reply.value.status && r.value.content == reply.value.content
    ensures r.Success? ==> r.value.headers.None?
    ensures r.Success? && r.value.status == Created ==> r.value.errorDetails.None?
    ensures r.Success? && r.value.newInstance.Some? ==> r.value.status == Created || r.value.content == ""
    ensures reply.Some? && reply.value.content != "" && lib.parse(reply.value.content).Some? && reply.value.status == Created ==>
      (var p := lib.parse(reply.value.content).value;
       (key !in p ==> r == Failure(EnvelopeKeyMissing(key)))
       && Carries(r, Payload(p, key, dec)) && (r.Success? ==> r.value.newInstance == Payload(p, key, dec).value))
    ensures reply.Some? && reply.value.content != "" && lib.parse(reply.value.content).Some? && reply.value.status != Created ==>
      (var e := ErrorOf(lib.parse(reply.value.content).value, lib);
       Carries(r, e) && (r.Success? ==> r.value.errorDetails == e.value))
  {
    match reply
    case None => Failure(TransportError)
    case Some(rep) =>
      if rep.content == "" then Success(PostResponse(rep.status, rep.content, None, None, Some(model)))
      else match lib.parse(rep.content)
        case None => Failure(MalformedBody)
        case Some(payload) =>
          if rep.status == Created then
            var instance :- Payload(payload, key, dec);
            Success(PostResponse(rep.status, rep.content, None, None, instance))
          else
            var error :- ErrorOf(payload, lib);
            Success(PostResponse(rep.status, rep.content, None, error, None))
  }

  /** `MakePostCall<TIn, TOut>`: the response headers are kept; an empty body gives a
      null instance; 201 and 202 decode the payload; anything else reads the error. */
  function PostAsResult<T>(reply: Option<Reply>, lib: JsonLib, key: string, dec: Decoder<T>): (r: Result<PostResponse<T>, Failure>)
    ensures reply.None? ==> r == Failure(TransportError)
    ensures reply.Some? && reply.value.content == "" ==>
      r == Success(PostResponse(reply.value.status, "", Some(reply.value.headers), None, None))
    ensures reply.Some? && reply.value.content != "" && lib.parse(reply.value.content).None? ==> r == Failure(MalformedBody)
    ensures r.Success? ==> reply.Some? && r.value.status == reply.value.status && r.value.content == reply.value.content
    ensures r.Success? ==> r.value.headers == Some(reply.value.headers)
    ensures r.Success? && r.value.newInstance.Some? ==> r.value.status in {Created, Accepted}
    ensures r.Success? && r.value.status in {Created, Accepted} ==> r.value.errorDetails.None?
    ensures reply.Some? && reply.value.content != "" && lib.parse(reply.value.content).Some?
            && reply.value.status in {Created, Accepted} ==>
      (var p := lib.parse(reply.value.content).value;
       (key !in p ==> r == Failure(EnvelopeKeyMissing(key)))
       && Carries(r, Payload(p, key, dec)) && (r.Success? ==> r.value.newInstance == Payload(p, key, dec).value))
    ensures reply.Some? && reply.value.content != "" && lib.parse(reply.value.content).Some?
            && reply.value.status !in {Created, Accepted} ==>
      (var e := ErrorOf(lib.parse(reply.value.content).value, lib);
       Carries(r, e) && (r.Success? ==> r.value.errorDetails == e.value))
  {
    match reply
    case None => Failure(TransportError)
    case Some(rep) =>
      if rep.content == "" then Success(PostResponse(rep.status, rep.content, Some(rep.headers), None, None))
      else match lib.parse(rep.content)
        case None => Failure(MalformedBody)
        case Some(payload) =>
          if rep.status == Created || rep.status == Accepted then
            var instance :- Payload(payload, key, dec);
            Success(PostResponse(rep.status, rep.content, Some(rep.headers), None, instance))
          else
            var error :- ErrorOf(payload, lib);
            Success(PostResponse(rep.status, rep.content, Some(rep.headers), error, None))
  }

  /** `MakePutCall<TIn, TOut>`: an empty body gives a null instance and is not parsed;
      200 decodes the payload; anything else reads the error. */
  function PutAsResult<T>(reply: Option<Reply>, lib: JsonLib, key: string, dec: Decoder<T>): (r: Result<UpdateResponse<T>, Failure>)
    ensures reply.None? ==> r == Failure(TransportError)
    ensures reply.Some? && reply.value.content == "" ==>
      r == Success(UpdateResponse(reply.value.status, "", None, None))
    ensures reply.Some? && reply.value.content != "" && lib.parse(reply.value.content).None? ==> r == Failure(MalformedBody)
    ensures r.Success? ==> reply.Some? && r.value.status == reply.value.status && r.value.content == reply.value.content
    ensures r.Success? && r.value.updatedInstance.Some? ==> r.value.status == OK
    ensures r.Success? && r.value.status == OK ==> r.value.errorDetails.None?
    ensures reply.Some? && reply.value.content != "" && lib.parse(reply.value.content).Some? && reply.value.status == OK ==>
      (var p := lib.parse(reply.value.content).value;
       (key !in p ==> r == Failure(EnvelopeKeyMissing(key)))
       && Carries(r, Payload(p, key, dec)) && (r.Success? ==> r.value.updatedInstance == Payload(p, key, dec).value))
    ensures reply.Some? && reply.value.content != "" && lib.parse(reply.value.content).Some? && reply.value.status != OK ==>
      (var e := ErrorOf(lib.parse(reply.value.content).value, lib);
       Carries(r, e) && (r.Success? ==> r.value.errorDetails == e.value))
  {
    match reply
    case None => Failure(TransportError)
    case Some(rep) =>
      if rep.content == "" then Success(UpdateResponse(rep.status, rep.content, None, None))
      else match lib.parse(rep.content)
        case None => Failure(MalformedBody)
        case Some(payload) =>
          if rep.status == OK then
            var instance :- Payload(payload, key, dec);
            Success(UpdateResponse(rep.status, rep.content, None, instance))
          else
            var error :- ErrorOf(payload, lib);
            Success(UpdateResponse(rep.status, rep.content, error, None))
  }

  /** `MakePutCall<T>`: unlike the two-type PUT, the body is always parsed, so an empty
      body is a malformed one. */
  function PutResult<T>(reply: Option<Reply>, lib: JsonLib, key: string, dec: Decoder<T>): (r: Result<UpdateResponse<T>, Failure>)
    ensures reply.None? ==> r == Failure(TransportError)
    ensures reply.Some? && lib.parse(reply.value.content).None? ==> r == Failure(MalformedBody)
    ensures r.Success? ==> reply.Some? && r.value.status == reply.value.status && r.value.content == reply.value.content
    ensures r.Success? && r.value.updatedInstance.Some? ==> r.value.status == OK
    ensures r.Success? && r.value.status == OK ==> r.value.errorDetails.None?
    ensures reply.Some? && lib.parse(reply.value.content).Some? && reply.value.status == OK ==>
      (var p := lib.parse(reply.value.content).value;
       (key !in p ==> r == Failure(EnvelopeKeyMissing(key)))
       && Carries(r, Payload(p, key, dec)) && (r.Success? ==> r.value.updatedInstance == Payload(p, key, dec).value))
    ensures reply.Some? && lib.parse(reply.value.content).Some? && reply.value.status != OK ==>
      (var e := ErrorOf(lib.parse(reply.value.content).value, lib);
       Carries(r, e) && (r.Success? ==> r.value.errorDetails == e.value))
  {
    match reply
    case None => Failure(TransportError)
    case Some(rep) =>
      match lib.parse(rep.content)
      case None => Failure(MalformedBody)
      case Some(payload) =>
        if rep.status == OK then
          var instance :- Payload(payload, key, dec);
          Success(UpdateResponse(rep.status, rep.content, None, instance))
        else
          var error :- ErrorOf(payload, lib);
          Success(UpdateResponse(rep.status, rep.content, error, None))
  }

  /** `MakeDeleteCall<T>`: 204 leaves the body unread; any other status parses it and
      reads the error details. */
  function DeleteResult(reply: Option<Reply>, lib: JsonLib): (r: Result<DeleteResponse, Failure>)
    ensures reply.None? ==> r == Failure(TransportError)
    ensures reply.Some? && reply.value.status == NoContent ==> r == Success(DeleteResponse(NoContent, None, None))
    ensures reply.Some? && reply.value.status != NoContent && lib.parse(reply.value.content).None? ==> r == Failure(MalformedBody)
    ensures r.Success? ==> reply.Some? && r.value.status == reply.value.status
    ensures r.Success? && r.value.status != NoContent ==> r.value.content == Some(reply.value.content)
    ensures reply.Some? && reply.value.status != NoContent && lib.parse(reply.value.content).Some? ==>
      (var e := ErrorOf(lib.parse(reply.value.content).value, lib);
       Carries(r, e) && (r.Success? ==> r.value.errorDetails == e.value))
  {
    match reply
    case None => Failure(TransportError)
    case Some(rep) =>
      if rep.status == NoContent then Success(DeleteResponse(rep.status, None, None))
      else match lib.parse(rep.content)
        case None => Failure(MalformedBody)
        case Some(payload) =>
          var error :- ErrorOf(payload, lib);
          Success(DeleteResponse(rep.status, Some(rep.content), error))
  }

  // ---------------------------------------------------------------------------
  // Round trips: an envelope holding serialised instances is read back as them.
  // ---------------------------------------------------------------------------

  /** The JSON array holding every instance serialised. */
  function EncodeAll<T>(xs: seq<T>, c: Codec<T>): (r: seq<Json>)
    ensures |r| == |xs| && forall i :: 0 <= i < |xs| ==> r[i] == c.encode(xs[i])
  {
    seq(|xs|, i requires 0 <= i < |xs| => c.encode(xs[i]))
  }

  /** Every value wrapped as a non-null instance. */
  function AllSome<T>(xs: seq<T>): (r: seq<Option<T>>)
    ensures |r| == |xs| && forall i :: 0 <= i < |xs| ==> r[i] == Some(xs[i])
  {
    seq(|xs|, i requires 0 <= i < |xs| => Some(xs[i]))
  }

  /** A 200 list envelope without `_links`, whose plural key holds the serialised
      instances, is read back as exactly those instances. */
  lemma ListRoundTrip<T(!new)>(rep: Reply, lib: JsonLib, key: string, c: Codec<T>, xs: seq<T>)
    requires RoundTrips(c)
    requires rep.status == OK && key != "_links"
    requires lib.parse(rep.content) == Some(map[key := Arr(EncodeAll(xs, c))])
    ensures GetResult(Some(rep), lib, key, c.decode)
      == Success(ListResponse(OK, rep.content, None, Some(AllSome(xs)), None))
  {
    var items := EncodeAll(xs, c);
    forall i | 0 <= i < |items|
      ensures DecodeToken(items[i], key, c.decode) == Success(Some(xs[i]))
    {
      assert c.encode(xs[i]).Obj? && c.decode(c.encode(xs[i])) == Some(xs[i]);
    }
    var all := DecodeAll(items, key, c.decode);
    assert all.value == AllSome(xs);
  }

  /** A 200 envelope whose singular key holds a serialised instance is read back as it. */
  lemma SingleRoundTrip<T(!new)>(rep: Reply, lib: JsonLib, key: string, c: Codec<T>, x: T)
    requires RoundTrips(c)
    requires rep.status == OK
    requires lib.parse(rep.content) == Some(map[key := c.encode(x)])
    ensures SingleResult(Some(rep), lib, key, c.decode) == Success(SingleResponse(OK, rep.content, None, Some(x)))
  {
    assert c.encode(x).Obj? && c.decode(c.encode(x)) == Some(x);
  }

  /** A 201 reply to a single-type POST whose body holds a serialised instance gives
      that instance, whatever model was posted. */
  lemma PostRoundTrip<T(!new)>(rep: Reply, lib: JsonLib, key: string, c: Codec<T>, x: T, model: T)
    requires RoundTrips(c)
    requires rep.status == Created && rep.content != ""
    requires lib.parse(rep.content) == Some(map[key := c.encode(x)])
    ensures PostResult(Some(rep), lib, key, c.decode, model) == Success(PostResponse(Created, rep.content, None, None, Some(x)))
  {
    assert c.encode(x).Obj? && c.decode(c.encode(x)) == Some(x);
  }

  /** Every error envelope is classified alike by every call: the status and the
      decoded error details (null when the body has no "error"), and no instance. */
  lemma ErrorEnvelopeAgreement<T>(rep: Reply, lib: JsonLib, key: string, dec: Decoder<T>, model: T,
                                  payload: JsonObject, e: Option<ErrorDetails>)
    requires rep.status !in {OK, Created, Accepted, NoContent}
    requires rep.content != ""
    requires lib.parse(rep.content) == Some(payload) && ErrorOf(payload, lib) == Success(e)
    ensures GetResult(Some(rep), lib, key, dec) == Success(ListResponse(rep.status, rep.content, e, None, None))
    ensures SingleResult(Some(rep), lib, key, dec) == Success(SingleResponse(rep.status, rep.content, e, None))
    ensures PostResult(Some(rep), lib, key, dec, model) == Success(PostResponse(rep.status, rep.content, None, e, None))
    ensures PostAsResult(Some(rep), lib, key, dec) == Success(PostResponse(rep.status, rep.content, Some(rep.headers), e, None))
    ensures PutResult(Some(rep), lib, key, dec) == Success(UpdateResponse(rep.status, rep.content, e, None))
    ensures PutAsResult(Some(rep), lib, key, dec) == Success(UpdateResponse(rep.status, rep.content, e, None))
    ensures DeleteResult(Some(rep), lib) == Success(DeleteResponse(rep.status, Some(rep.content), e))
  {
  }

  /** A 204 reply to a DELETE is the same whatever its body says and whatever the
      library would make of it. */
  lemma DeleteNoContentIgnoresBody(rep1: Reply, rep2: Reply, lib1: JsonLib, lib2: JsonLib)
    requires rep1.status == NoContent && rep2.status == NoContent
    ensures DeleteResult(Some(rep1), lib1) == DeleteResult(Some(rep2), lib2)
  {
  }

  /** The two PUT variants agree on every non-empty body; on an empty one the two-type
      PUT yields a null instance where the single-type PUT fails to parse. */
  lemma PutVariantsAgree<T>(rep: Reply, lib: JsonLib, key: string, dec: Decoder<T>)
    ensures rep.content != "" ==> PutResult(Some(rep), lib, key, dec) == PutAsResult(Some(rep), lib, key, dec)
    ensures rep.content == "" && lib.parse("").None? ==>
      PutResult(Some(rep), lib, key, dec).Failure? && PutAsResult(Some(rep), lib, key, dec).Success?
  {
  }

  /** On a non-empty body the two POST variants read the payload under the same rule
      except that only the two-type POST accepts 202 and keeps the headers. */
  lemma PostVariantsAgree<T>(rep: Reply, lib: JsonLib, key: string, dec: Decoder<T>, model: T)
    requires rep.content != "" && rep.status != Accepted
    ensures PostResult(Some(rep), lib, key, dec, model).Success? <==> PostAsResult(Some(rep), lib, key, dec).Success?
    ensures PostResult(Some(rep), lib, key, dec, model).Success? ==>
      PostResult(Some(rep), lib, key, dec, model).value
        == PostAsResult(Some(rep), lib, key, dec).value.(headers := None)
  {
  }
}

=== FILE: uris.dfy ===
/** URL handling of the model converters. Parsing a URL is done by `System.Uri`;
    here it is an injected function that gives the path segments of an absolute URL
    (a parsed URI always has at least the root segment `/`), or None when the text is
    not an absolute URL. */
module Uris {
  import opened Wrappers

  type Segments = s: seq<string> | |s| > 0 witness ["/"]

  datatype UriParser = UriParser(tryCreateAbsolute: string -> Option<Segments>)

  /** The last path segment of an absolute URL; None for a null or non-absolute URL.
      Component.cs and Document.cs carry identical private copies of this helper. */
  function GetLastSegmentFromUrl(uri: UriParser, url: Option<string>): (r: Option<string>)
    ensures r.Some? <==> url.Some? && uri.tryCreateAbsolute(url.value).Some?
    ensures r.Some? ==> r.value == Last(uri.tryCreateAbsolute(url.value).value)
  {
    match url
    case None => None
    case Some(u) =>
      match uri.tryCreateAbsolute(u)
      case None => None
      case Some(segments) => Some(segments[|segments| - 1])
  }

  /** The last element of a non-empty sequence. */
  function Last<T>(s: seq<T>): (x: T)
    requires |s| > 0
    ensures x in s
  {
    s[|s| - 1]
  }
}

=== FILE: wrappers.dfy ===
/** Option and Result, the two failure-aware wrappers the rest of the model uses.
    Option stands for a C# reference that may be null; Result for a call that either
    returns a value or throws. */
module Wrappers {

  datatype Option<+T> = None | Some(value: T) {

    /** The wrapped value, or `default` when there is none. */
    function GetOr(default: T): T {
      match this
      case Some(v) => v
      case None => default
    }
  }

  datatype Result<+R, +E> = Success(value: R) | Failure(error: E) {

    predicate IsFailure() {
      Failure?
    }

    function PropagateFailure<U>(): Result<U, E>
      requires Failure?
    {
      Failure(error)
    }

    function Extract(): R
      requires Success?
    {
      value
    }
  }
}
